=== FILE: README.md ===
# canvas.mjs bookkeeping, in Dafny

This project models the in-memory bookkeeping of `canvas.mjs`, a small
client for the Canvas learning-management API. The model covers:

- the `Course` class: the listing fields it copies, a permission object
  replaced wholesale, and two id-keyed record stores (announcements and
  assignments) read back sorted by `position`;
- `Canvas.updateCourseObjects`: the course listing is reconciled into the
  `courses` map, and then every course's permissions are refreshed;
- `Canvas.updateAnnouncements`: one request scoped by a
  `context_codes[]=course_<id>` query over the courses that may read
  announcements, and the dispatch of each returned announcement to the
  course its `context_code` names;
- `Canvas.updateAssignments`: one request per active course holding
  `read_grades`, and the records built from the answers;
- `Canvas.getCourses`, the filter by active flag and by substring of the
  course code;
- `Canvas.update`, the three stages in sequence.

Every request the client makes is an input. `Refresh.Remote` says what the
server answers to each request. An answer is `Fulfilled(value)` or
`Rejected(reason)`, as `Promise.allSettled` reports it.

Modules, one per file:

| file | module | what it holds |
|---|---|---|
| js_values.dfy | `JsValues` | `undefined` / `null` / value, JSON values, `Option`, settled promise results |
| text.dfy | `Text` | decimal rendering, `parseInt`, `split`, `join`, `includes` |
| record_store.dfy | `RecordStore` | the id-keyed store: writes, the add-return answer, key order, the sorted view |
| course.dfy | `Courses` | the `Course` record and its methods |
| registry.dfy | `Registry` | the `courses` map: listing payloads, reconciliation, the settle-all fan-out, the permission refresh, `getCourses` |
| announcement_sync.dfy | `AnnouncementSync` | the context-code query, its parsing, announcement records, dispatch |
| assignment_sync.dfy | `AssignmentSync` | assignment records, target selection, the assignment fan-out |
| refresh.dfy | `Refresh` | `updateCourseObjects` as a whole and `update` |

Conventions:

- **Missing values.** `JsVal<T>` keeps JavaScript's `undefined` and `null`
  apart. The source distinguishes them: a course without a term gets a
  `null` term name but `undefined` dates.
- **Dates.** A date is a millisecond timestamp.
- **Iteration order.** `Object.keys`, `Object.values` and `Object.entries`
  visit array-index keys (0 to 2^32 - 2) in ascending order. This is
  `RecordStore.SortedKeys`, applied to every id.
- **Throws.** A stage that throws ends as `Aborted`. It carries the
  registry as the throw left it, because writes made before a throw stay
  made.

Where the code and its doc comments or wider design intent differ, the
model follows the code:

- An existing course is never refreshed from a later listing.
- A course without a course code is kept.
- An announcement naming an unknown course makes the announcement stage
  throw; it is not dropped.
- A `getCourses` code filter throws on a course whose code is `null`.
- Permissions are re-fetched for every course on every update.
- There is no short-code derivation, no lecture detection and no redacted
  view: `canvas.mjs` has none of these.

## Model

| member | source | states |
|---|---|---|
| RecordStore.SortedKeys | canvas.mjs:31 | the keys of an object with integer keys as JavaScript enumerates them: strictly increasing, exactly the key set, each key once |
| RecordStore.ValuesAt | canvas.mjs:31 | the values stored under a list of keys: one per key, in the keys' order |
| RecordStore.ValuesByKey | canvas.mjs:31 | `Object.values(store)`: one value per key, the i-th being the value under the i-th key in enumeration order |
| RecordStore.Put | canvas.mjs:59-60 | writing a record adds its id to the keys, maps the id to the record minus its id field, and leaves every other key's value unchanged |
| RecordStore.PutAllKeys | canvas.mjs:157-168 | a run of writes leaves exactly the old keys plus the written ids |
| RecordStore.PutAllLastWins | canvas.mjs:157-168 | after a run of writes, a written id holds the last record written for it; an id nobody wrote keeps its old value |
| RecordStore.AddAsWritten | canvas.mjs:59-61 | the add as written: the store is written, and the "newly added" answer is false for every store and record |
| RecordStore.AddIntended | canvas.mjs:55-58 | the add the doc comment describes: same store, answer true exactly when the id was absent, and the store grows by one exactly then |
| RecordStore.AddAsWrittenMisreports | canvas.mjs:55-61 | for a record whose id is absent, the intended answer is true while the as-written answer is false; the stores agree |
| RecordStore.Insert | canvas.mjs:32 | inserting into a list sorted by position keeps it sorted, adds exactly that element (as a multiset) and grows the length by one |
| RecordStore.SortByPosition | canvas.mjs:32 | the sort with comparator `a.position - b.position` returns a permutation of its input sorted ascending by position |
| RecordStore.View | canvas.mjs:30-34 | the getter returns every stored record exactly as often as it is stored, ascending by position |
| RecordStore.ViewElementStored | canvas.mjs:30-34 | every record in the view is stored under some key |
| RecordStore.ViewHasStored | canvas.mjs:30-34 | every stored record appears in the view |
| RecordStore.ViewContents | canvas.mjs:30-34 | the view and the store hold the same records, in both directions |
| Courses.HasPermission | canvas.mjs:46-52 | a permission is granted only if it is a key of the permission object, and then exactly when its flag is true |
| Courses.NewCourse | canvas.mjs:11-28 | a new course keeps the parameter fields, grants no permission at all, and has both stores empty |
| Courses.UpdatePermissions | canvas.mjs:42-44 | after the update a permission is granted exactly when the new object has it set to true; the listing fields and both stores are unchanged |
| Courses.UpdatePermissionsLastWins | canvas.mjs:42-44 | two updates in a row are the same as the second alone: the old object is fully replaced |
| Courses.AddAnnouncement | canvas.mjs:54-62 | the announcement store maps the id to the record minus its id, keeps every other key, the course's other fields are unchanged, and the answer is false |
| Courses.AddAssignment | canvas.mjs:64-68 | the same for the assignment store: id mapped to the record minus its id, other keys and fields unchanged, answer false |
| Courses.AddAnnouncementIntended | canvas.mjs:54-62 | the intended add: answer true exactly when the id was absent, and the same course as the as-written add |
| Courses.AddAssignmentIntended | canvas.mjs:64-68 | the intended assignment add: answer true exactly when the id was absent, course as in the as-written add |
| Courses.AddAnnouncementTwice | canvas.mjs:54-62 | two adds with one id leave one record, the second; the count of records grows by one only if the id was new; the second add is never new under the intended answer |
| Courses.Announcements | canvas.mjs:30-34 | the getter: sorted ascending by position and a permutation of the stored values |
| Courses.Assignments | canvas.mjs:36-40 | the getter: sorted ascending by position and a permutation of the stored values |
| Courses.ToJson | canvas.mjs:70-77 | the snapshot carries the listing fields and both getters' results (sorted permutations of the stores) |
| Courses.ToJsonIgnoresPermissions | canvas.mjs:70-77 | the snapshot does not depend on the permission object |
| Text.Decimal | canvas.mjs:153 | a non-negative id renders as a non-empty string of decimal digits without a leading zero |
| Text.DecimalValue | canvas.mjs:153 | the digits of the rendering denote the id |
| Text.ParseInt | canvas.mjs:163 | `parseInt` gives a number exactly when a (signed) run of leading digits exists |
| Text.ParseIntDecimal | canvas.mjs:163 | `parseInt` of the decimal rendering of n gives n back |
| Text.Split | canvas.mjs:163 | `split` always returns at least one piece |
| Text.SplitPiecesFree | canvas.mjs:163 | no piece returned by `split` contains the separator |
| Text.SplitJoin | canvas.mjs:150-153 | splitting a join of non-empty, separator-free pieces gives the pieces back |
| Text.JoinSnoc | canvas.mjs:150-153 | appending with `&` only between items builds the join of the items |
| Text.JoinEmpty | canvas.mjs:150-153 | a join is empty exactly when there are no items or one empty item |
| Text.Includes | canvas.mjs:211 | `includes` is true exactly when the needle occurs at some offset of the string |
| Registry.ToDate | canvas.mjs:3-9 | a nullish input gives null, any other gives that date; the result is never undefined |
| Registry.CourseInfoOf | canvas.mjs:109-121 | the new course's fields: the start date through `toDate`; active iff the start is at or after the year start, and for a course without a start date iff the year start is at or before the epoch; a term's name and its dates through `toDate`, or a null name and undefined dates without a term; the calendar link, or an empty one without a calendar; id, name, code, image, student count, teachers and tabs copied unchanged |
| Registry.FirstWithId | canvas.mjs:108-127 | the payload found carries the id and is the listing's first occurrence of it: no earlier payload carries the id |
| Registry.Reconcile | canvas.mjs:108-129 | the registry afterwards has exactly the old ids plus the listed ids: no id is removed |
| Registry.ReconcileKeepsExisting | canvas.mjs:123-124 | an id already present keeps its whole course object, permissions and stores included |
| Registry.ReconcileInsertsFirst | canvas.mjs:119-127 | a new id holds a fresh course built from the first listing entry with that id |
| Registry.ReconcileCountsNewIds | canvas.mjs:106-128 | the returned count equals the number of distinct listed ids that were not present before |
| Registry.ReconcileCountsAdded | canvas.mjs:106-128 | the returned count equals the number of ids the registry gained |
| Registry.ReconcileIdempotent | canvas.mjs:108-129 | reconciling the same listing again changes nothing and counts 0 |
| Registry.FilterIds | canvas.mjs:148-149 | the filter keeps exactly the ids that pass the test |
| Registry.FilterIdsIncreasing | canvas.mjs:148-149 | filtered ids stay in enumeration order |
| Registry.ApplyEach | canvas.mjs:131-141 | a fan-out over known courses neither adds nor removes a course |
| Registry.ApplyEachIsParallel | canvas.mjs:131-141 | with distinct targets, the sequential reading of the settle-all fan-out gives each target exactly its own request's effect and leaves other courses alone |
| Registry.ApplyEachCountZero | canvas.mjs:187-200 | a fan-out whose every request reports 0 reports 0 |
| Registry.RefreshPermissions | canvas.mjs:131-141 | every course whose permission request is fulfilled has its permission object replaced by the answer; every course whose request is rejected is unchanged; no course is added or removed |
| Registry.RefreshPermissionsGrants | canvas.mjs:131-141 | afterwards a course grants exactly what its fulfilled answer grants, or what it granted before if rejected, and changes in nothing but permissions |
| Registry.Judge | canvas.mjs:207-213 | one loop step throws exactly on a course passing the active test with a nullish code under a code filter, and keeps exactly the selected courses |
| Registry.ScanKeys | canvas.mjs:206-216 | the loop throws only if some course throws; otherwise no course throws, every kept course is selected and unchanged, and every selected course is kept |
| Registry.GetCourses | canvas.mjs:203-218 | `getCourses` throws exactly when some course has a nullish code under a code filter and passes the active test; otherwise it returns a key-preserving sub-map holding exactly the selected courses |
| Registry.SelectedMeaning | canvas.mjs:203-218 | with `active` every kept course is active; with a non-empty code every kept code contains it; every course meeting both is kept |
| AnnouncementSync.AnnouncementCoursesExact | canvas.mjs:148-149 | the query names exactly the courses holding `read_announcements`, each once, in enumeration order |
| AnnouncementSync.QueryStep | canvas.mjs:150-153 | one loop step appends `&` only between items and then the item |
| AnnouncementSync.BuildContextCodes | canvas.mjs:147-155 | the `+=` loop builds exactly the `&`-join of the parameters of the permitted courses |
| AnnouncementSync.ContextCodeQueryEmpty | canvas.mjs:147-155 | the query is empty exactly when no course may read announcements |
| AnnouncementSync.ParseContextCodeRoundTrip | canvas.mjs:153-163 | parsing `course_<id>` with `split('_')[1]` and `parseInt` gives the id back |
| AnnouncementSync.ItemCourseRoundTrip | canvas.mjs:153-163 | reading the course back from a query parameter gives its id |
| AnnouncementSync.DecodeJoinedItems | canvas.mjs:147-155 | splitting a joined query at `&` and reading each parameter gives back the ids in order |
| AnnouncementSync.QueryRoundTrip | canvas.mjs:147-155 | decoding the query gives exactly the permitted courses, in order |
| AnnouncementSync.AnnouncementEntryDefaults | canvas.mjs:158-166 | a missing author becomes a null id with empty name and link; read exactly when the read state is `read`; the creation date is never undefined |
| AnnouncementSync.Dispatch | canvas.mjs:157-169 | dispatch completes exactly when every announcement names a known course through a string context code; no course is added or removed; a completed dispatch counts 0 |
| AnnouncementSync.DispatchFilesByOwner | canvas.mjs:157-168 | dispatch touches only announcement stores; on completion each course's store has received exactly the announcements filed under it, in order |
| AnnouncementSync.DispatchAbortKeepsPrefix | canvas.mjs:157-168 | when the k-th announcement is the first that cannot be filed, the dispatch throws and every course's announcement store keeps exactly the writes of the announcements before it that were filed under that course |
| AnnouncementSync.DispatchThrowsOnUnknownCourse | canvas.mjs:163-165 | an announcement whose context code is nullish, does not parse to a number, or names no course of the registry makes the stage throw |
| AnnouncementSync.AnnouncementStage | canvas.mjs:145-170 | a rejected request throws with nothing written; no course is added or removed; a completed stage counts 0 |
| AnnouncementSync.UpdateAnnouncements | canvas.mjs:145-170 | the stage as written, with the query built by the loop, ends as the stage's definition says |
| AssignmentSync.AssignmentEntryDefaults | canvas.mjs:178-189 | an assignment counts unless explicitly omitted; a missing submission becomes null id and grade, score -1, not graded, not late, not missing, no attachments, null download; graded exactly when the workflow state is `graded` |
| AssignmentSync.AssignmentEntries | canvas.mjs:177-189 | one record per returned assignment, and the records' ids are exactly the returned assignments' ids |
| AssignmentSync.AddAllAssignments | canvas.mjs:175-191 | the per-course loop writes every returned assignment in order into the assignment store, touches nothing else and counts 0 |
| AssignmentSync.AssignmentTargetsExact | canvas.mjs:193-197 | assignments are requested for exactly the active courses holding `read_grades`, each once |
| AssignmentSync.AssignmentStepCountZero | canvas.mjs:187-189 | every per-course request reports 0 |
| AssignmentSync.AssignmentFanOutAt | canvas.mjs:193-198 | after the fan-out, a target whose request was fulfilled holds its returned assignments; any other course is unchanged |
| AssignmentSync.UpdateAssignments | canvas.mjs:172-201 | fulfilled targets get their assignments written and nothing else changed; non-targets and rejected requests leave the course as it was; no course is added or removed; the count is 0 |
| AssignmentSync.UpdateAssignmentsAsksOnlyTargets | canvas.mjs:193-197 | a course's result depends on its own answer only, and only if it is a target |
| AssignmentSync.UpdateAssignmentsStore | canvas.mjs:175-191 | a fulfilled target's store keys are its old keys plus the ids of the returned assignments; a returned id holds the record built from the last assignment returned with it, and unreturned ids keep their records |
| Refresh.UpdateCourseObjects | canvas.mjs:105-129 | a rejected listing throws with nothing written; otherwise the registry gains exactly the listed ids and the count is the number of new ones |
| Refresh.UpdateCourseObjectsAt | canvas.mjs:105-143 | after the stage, a known course is the course it was (fields and both stores kept) and a newly listed one is a fresh course from its first listing entry; either way its permission object is the answer to its own permission request when that is fulfilled, and unchanged when it is rejected |
| Refresh.Update | canvas.mjs:97-103 | no course is ever removed; a rejected listing leaves the registry as it was; a completed update has the old plus listed ids and counts (new ids, 0, 0) |
| Refresh.UpdateResolvesExactly | canvas.mjs:97-201 | `update()` resolves exactly when the listing request and the announcement request are fulfilled and every returned announcement can be filed; a rejected permission or assignment request never makes it fail |
| Refresh.RunUpdate | canvas.mjs:97-103 | running the stages with the loop-built query gives the result `update` defines |
| Refresh.AnnouncementStageKeepsInfo | canvas.mjs:157-168 | the announcement stage never changes a course's listing fields, even when it throws |
| Refresh.AssignmentStageKeepsInfo | canvas.mjs:187-189 | the assignment stage never changes a course's listing fields |
| Refresh.LaterStagesKeepInfo | canvas.mjs:98-100 | the stages after the listing keep every course's listing fields |
| Refresh.CourseStageKeepsInfo | canvas.mjs:131-141 | the permission refresh keeps every course's listing fields |
| Refresh.UpdateKeepsCourseInfo | canvas.mjs:97-103 | a known course keeps the fields it was created with through any update |
| Refresh.UpdateCreatesFromFirstEntry | canvas.mjs:119-127 | a newly listed course carries the fields of the first listing entry with its id |
| Refresh.UpdateTwiceAddsNoCourse | canvas.mjs:123-128 | a second update that sees the same listing reports no new course |

## Left out

- Network requests, the API token and the subdomain (lines 82-83, 107, 135, 156, 176). Their answers are inputs (`Refresh.Remote`).
- Concurrency. `Promise.allSettled` at lines 133-141 and 193-198 is read as a sequential fold over distinct courses. `Registry.ApplyEachIsParallel` shows that the order does not matter.
- `Date` parsing and ISO formatting. Dates are millisecond timestamps, and an unparseable date string (an invalid `Date`) is not modelled. The announcement request's date window at line 156 is not part of the query model.
- `Canvas.create`, `Canvas.toJSON`, `lastUpdate`, the constructor's configuration, and `testApi.mjs`.
- The `enrollments` and `permissions` fields of the course listing. They are read at line 109 but never stored.
- Text.ParseInt: does not skip leading whitespace, does not read a `0x` prefix, and has no floating-point limit. Context codes never contain these.
- Text.Decimal: ids are taken to be exact integers below 2^53, where `String(id)` is the plain decimal rendering and the context-code round trips hold. JavaScript numbers are doubles: from 2^53 distinct ids can coincide, and from 10^21 `${id}` renders in exponent form (`course_1e+21`, which `parseInt` reads back as 1). The model renders every natural number in plain digits.
- Courses.Announcements: states sortedness by position and permutation of the stored values. It does not state the order among equal positions, which `Array.prototype.sort` leaves to its stable order over `Object.values`. Positions are integers here. A `null` position, which the subtraction reads as 0, and an `undefined` one, which makes the comparator `NaN`, are not modelled.
- Courses.Assignments: the same as `Courses.Announcements`.
- Registry.GetCourses: `active` is a boolean after its default. A non-string `code` filter is not modelled.
- JSON values are kept as opaque payloads; `hasPermission` flags are booleans.
- RecordStore.SortedKeys: enumerates every id in ascending order. JavaScript does so only for ids below 2^32 - 1. Larger integer-like keys come after those, in insertion order. So for such ids the model's order of the context-code parameters (`AnnouncementSync.BuildContextCodes`) and of the values the getters sort differs from the source's.
- Object identity. Courses and records are values here. `getCourses` (line 215) hands out the registry's own `Course` objects, and the getters (lines 31 and 37) hand out the stored record objects. In the source, later writes show through those results and writes to them change the registry. This aliasing is not modelled.

## Findings

| source | as written | input that shows it | evidently intended | confidence | as-written member | corrected member |
|---|---|---|---|---|---|---|
| canvas.mjs:54-68 | `addAnnouncement` / `addAssignment` write the record first and then return `!hasOwnProperty(id)`, which is always false | an empty store and any record: the record is new, but the answer is false | return true exactly when the id was absent before the write (the doc comment at lines 55-57), so the counts at lines 165 and 187 count new records | not executed | RecordStore.AddAsWritten, RecordStore.AddAsWrittenMisreports | RecordStore.AddIntended |

The corrected add writes the same store as the one as written
(`RecordStore.AddAsWrittenMisreports`, `Courses.AddAnnouncementIntended`).
Only the answer differs. That answer is what `update()` resolves with, so
the stages keep the as-written answer. This is why
`Refresh.Update` reports 0 new announcements and 0 new assignments.

=== FILE: announcement_sync.dfy ===
/**
 `Canvas.updateAnnouncements`: one request for the announcements of every
 course allowed to read them, scoped by a `context_codes[]` query, and the
 dispatch of each returned announcement into the course its
 `context_code` names.
 */
module AnnouncementSync {
  import opened JsValues
  import opened Text
  import opened RecordStore
  import opened Courses
  import opened Registry

  const ReadAnnouncements: string := "read_announcements"

  // ---------------------------------------------------------------------------
  // The context-code query: lines 147-155

  /** `course_<id>`, the context code the API uses for a course. */
  function ContextCode(id: Id): string {
    "course_" + Decimal(id)
  }

  /** `context_codes[]=course_<id>`, one parameter of the query. */
  function QueryItem(id: Id): string {
    "context_codes[]=" + ContextCode(id)
  }

  /** The query parameters of some courses, in order. */
  function QueryItems(ids: seq<Id>): seq<string> {
    seq(|ids|, i requires 0 <= i < |ids| => QueryItem(ids[i]))
  }

  function MayReadAnnouncements(courses: CourseMap): Id -> bool {
    (id: Id) => id in courses && HasPermission(courses[id], ReadAnnouncements)
  }

  /** The courses whose announcements are requested, in enumeration order. */
  function AnnouncementCourses(courses: CourseMap): seq<Id> {
    FilterIds(SortedKeys(courses.Keys), MayReadAnnouncements(courses))
  }

  /** The reference definition of the query: the permitted items joined with `&`. */
  function ContextCodeQuery(courses: CourseMap): string {
    Join('&', QueryItems(AnnouncementCourses(courses)))
  }

  /** Exactly the courses holding `read_announcements` are requested, each once. */
  lemma AnnouncementCoursesExact(courses: CourseMap)
    ensures forall id :: id in AnnouncementCourses(courses) <==>
      id in courses && HasPermission(courses[id], ReadAnnouncements)
    ensures StrictlyIncreasing(AnnouncementCourses(courses))
  {
    FilterIdsIncreasing(SortedKeys(courses.Keys), MayReadAnnouncements(courses));
  }

  lemma QueryItemNonEmpty(id: Id)
    ensures |QueryItem(id)| > 0
  {
  }

  /** One step of the loop that builds the query: `&` only between items. */
  lemma QueryStep(before: seq<Id>, id: Id)
    ensures var q := Join('&', QueryItems(before));
            Join('&', QueryItems(before + [id])) == (if |q| > 0 then q + "&" else q) + QueryItem(id)
  {
    assert QueryItems(before + [id]) == QueryItems(before) + [QueryItem(id)];
    JoinSnoc('&', QueryItems(before), QueryItem(id));
    JoinEmpty('&', QueryItems(before));
    if |before| > 0 {
      QueryItemNonEmpty(before[0]);
    }
  }

  /** The `+=` loop that builds `contextCodes`. */
  method BuildContextCodes(courses: CourseMap) returns (q: string)
    ensures q == ContextCodeQuery(courses)
  {
    var keys := SortedKeys(courses.Keys);
    var keep := MayReadAnnouncements(courses);
    q := "";
    ghost var ids: seq<Id> := [];
    var i := 0;
    while i < |keys|
      invariant 0 <= i <= |keys|
      invariant ids == FilterIds(keys[..i], keep)
      invariant q == Join('&', QueryItems(ids))
    {
      var id := keys[i];
      i := i + 1;
      FilterIdsStep(keys, keep, i, ids);
      assert keys[i - 1] == id;
      if keep(id) {
        QueryStep(ids, id);
        if |q| > 0 {
          q := q + "&";
        }
        q := q + QueryItem(id);
        ids := ids + [id];
      }
    }
    assert keys[..|keys|] == keys;
  }

  /** The query is empty exactly when no course may read announcements. */
  lemma ContextCodeQueryEmpty(courses: CourseMap)
    ensures ContextCodeQuery(courses) == "" <==>
      forall id :: id in courses ==> !HasPermission(courses[id], ReadAnnouncements)
  {
    var ids := AnnouncementCourses(courses);
    JoinEmpty('&', QueryItems(ids));
    if |ids| > 0 {
      QueryItemNonEmpty(ids[0]);
      assert ids[0] in ids;
    }
  }

  // ---------------------------------------------------------------------------
  // Reading a context code back: line 163

  /** `parseInt(contextCode.split('_')[1])`; `None` is NaN (there is no second piece, or no digits). */
  function ParseContextCode(code: string): Option<int> {
    var pieces := Split(code, '_');
    if |pieces| < 2 then None else ParseInt(pieces[1])
  }

  lemma FreeConcat(a: string, b: string, c: char)
    requires Free(a, c) && Free(b, c)
    ensures Free(a + b, c)
  {
    forall i | 0 <= i < |a + b| ensures (a + b)[i] != c {
      if i >= |a| { assert (a + b)[i] == b[i - |a|]; }
    }
  }

  lemma DigitsFree(s: string, c: char)
    requires AllDigits(s) && !IsDigit(c)
    ensures Free(s, c)
  {
  }

  /** Reading the context code of a course back gives the course id. */
  lemma ParseContextCodeRoundTrip(id: Id)
    ensures ParseContextCode(ContextCode(id)) == Some(id)
  {
    var digits := Decimal(id);
    assert ContextCode(id) == "course" + ['_'] + digits;
    DigitsFree(digits, '_');
    SplitAt("course", '_', digits);
    SplitFree(digits, '_');
    ParseIntDecimal(id);
  }

  const ItemPrefix: string := "context_codes[]="

  /** The course id one query parameter names, if it is a context-code parameter. */
  function ItemCourse(item: string): Option<int> {
    if |ItemPrefix| <= |item| && item[..|ItemPrefix|] == ItemPrefix then
      ParseContextCode(item[|ItemPrefix|..])
    else None
  }

  /** The course ids a context-code query string names, in order. */
  function DecodeQuery(q: string): (r: seq<Option<int>>) {
    if q == "" then []
    else
      var items := Split(q, '&');
      seq(|items|, i requires 0 <= i < |items| => ItemCourse(items[i]))
  }

  function AsSome(ids: seq<Id>): (r: seq<Option<int>>)
    ensures |r| == |ids|
  {
    seq(|ids|, i requires 0 <= i < |ids| => Some(ids[i] as int))
  }

  lemma QueryItemFree(id: Id)
    ensures Free(QueryItem(id), '&')
  {
    DigitsFree(Decimal(id), '&');
    FreeConcat("context_codes[]=course_", Decimal(id), '&');
    assert QueryItem(id) == "context_codes[]=course_" + Decimal(id);
  }

  lemma ItemCourseRoundTrip(id: Id)
    ensures ItemCourse(QueryItem(id)) == Some(id)
  {
    var item := QueryItem(id);
    assert item[..|ItemPrefix|] == ItemPrefix;
    assert item[|ItemPrefix|..] == ContextCode(id);
    ParseContextCodeRoundTrip(id);
  }

  /** No item of a query holds the separator. */
  lemma QueryItemsFree(ids: seq<Id>)
    ensures forall i :: 0 <= i < |ids| ==> Free(QueryItems(ids)[i], '&')
  {
    forall i | 0 <= i < |ids| ensures Free(QueryItems(ids)[i], '&') {
      QueryItemFree(ids[i]);
    }
  }

  /** Decoding the join of the items of some ids gives back those ids. */
  lemma DecodeJoinedItems(ids: seq<Id>)
    ensures DecodeQuery(Join('&', QueryItems(ids))) == AsSome(ids)
  {
    var items := QueryItems(ids);
    if |ids| == 0 {
      assert Join('&', items) == "";
    } else {
      QueryItemNonEmpty(ids[0]);
      JoinEmpty('&', items);
      QueryItemsFree(ids);
      SplitJoin('&', items);
      forall i | 0 <= i < |ids| ensures ItemCourse(items[i]) == Some(ids[i] as int) {
        ItemCourseRoundTrip(ids[i]);
      }
    }
  }

  /**
   The query round trip: decoding the query names exactly the courses that
   may read announcements, in enumeration order.
   */
  lemma QueryRoundTrip(courses: CourseMap)
    ensures DecodeQuery(ContextCodeQuery(courses)) == AsSome(AnnouncementCourses(courses))
  {
    DecodeJoinedItems(AnnouncementCourses(courses));
  }

  // ---------------------------------------------------------------------------
  // Announcement records: lines 157-167

  datatype AuthorPayload = AuthorPayload(id: JsVal<nat>, displayName: JsVal<string>, htmlUrl: JsVal<string>)

  /** One element of `/api/v1/announcements`; dates are milliseconds since the epoch. */
  datatype AnnouncementPayload = AnnouncementPayload(
    id: Id,
    position: int,
    title: JsVal<string>,
    message: JsVal<string>,
    postedAt: JsVal<int>,
    readState: JsVal<string>,
    author: JsVal<AuthorPayload>,
    url: JsVal<string>,
    contextCode: JsVal<string>)

  function AuthorOf(author: JsVal<AuthorPayload>): Author {
    match author
    case Val(a) => Author(a.id, a.displayName, a.htmlUrl)
    case _ => Author(Null, Val(""), Val(""))
  }

  /** The record handed to `addAnnouncement`, split into its id and the rest. */
  function AnnouncementEntry(p: AnnouncementPayload): Entry<Announcement> {
    Entry(p.id, Announcement(p.position, p.title, p.message, ToDate(p.postedAt),
                             p.readState == Val("read"), AuthorOf(p.author), p.url))
  }

  /**
   The record defaults: the id becomes the key; a missing author becomes a
   null id with empty name and link; an announcement is read exactly when
   its read state is the string `read`; the creation date is never undefined.
   */
  lemma AnnouncementEntryDefaults(p: AnnouncementPayload)
    ensures AnnouncementEntry(p).id == p.id
    ensures p.author.IsNullish() ==> AnnouncementEntry(p).rest.author == Author(Null, Val(""), Val(""))
    ensures p.author.Val? ==> AnnouncementEntry(p).rest.author.name == p.author.value.displayName
    ensures AnnouncementEntry(p).rest.read <==> p.readState == Val("read")
    ensures !AnnouncementEntry(p).rest.created.Undefined?
    ensures AnnouncementEntry(p).rest.position == p.position
  {
  }

  /**
   An announcement can be filed when `contextCode.split` does not throw (the
   code is a string) and `this.courses[courseId]` is a course.
   */
  predicate Routable(courses: CourseMap, p: AnnouncementPayload) {
    && p.contextCode.Val?
    && var n := ParseContextCode(p.contextCode.value);
    && n.Some? && n.value >= 0 && n.value as nat in courses
  }

  /** The course an announcement is filed under, as the context code names it. */
  function Owner(p: AnnouncementPayload): Option<Id> {
    if p.contextCode.IsNullish() then None
    else
      var n := ParseContextCode(p.contextCode.value);
      if n.Some? && n.value >= 0 then Some(n.value as nat) else None
  }

  /** The entries of `list` that are filed under course `id`, in order. */
  function EntriesFor(list: seq<AnnouncementPayload>, id: Id): seq<Entry<Announcement>> {
    if |list| == 0 then []
    else
      var rest := EntriesFor(list[1..], id);
      if Owner(list[0]) == Some(id) then [AnnouncementEntry(list[0])] + rest else rest
  }

  /**
   The dispatch loop. Each announcement goes into the store of the course
   its context code names; the first one that cannot be filed throws, and
   the writes made before it stay made. The count adds up the as-written
   "newly added" answers.
   */
  function Dispatch(courses: CourseMap, list: seq<AnnouncementPayload>): (r: Outcome)
    ensures r.courses.Keys == courses.Keys
    ensures r.Completed? <==> forall i :: 0 <= i < |list| ==> Routable(courses, list[i])
    ensures r.Completed? ==> r.count == 0
    decreases |list|
  {
    if |list| == 0 then Completed(courses, 0)
    else
      var p := list[0];
      if !Routable(courses, p) then Aborted(courses, "TypeError")
      else
        var id := Owner(p).value;
        var added := AddAnnouncement(courses[id], AnnouncementEntry(p));
        var grown := courses[id := added.course];
        assert forall q :: Routable(grown, q) <==> Routable(courses, q);
        assert forall i :: 0 <= i < |list[1..]| ==> list[1..][i] == list[i + 1];
        match Dispatch(grown, list[1..])
        case Completed(m, n) => Completed(m, n + (if added.isNew then 1 else 0))
        case Aborted(m, why) => Aborted(m, why)
  }

  /**
   Dispatch only touches announcement stores, and when it completes each
   course's store has received exactly the announcements filed under it,
   in order; by `PutAllLastWins` the last one with a given id is kept.
   */
  lemma {:induction false} DispatchFilesByOwner(courses: CourseMap, list: seq<AnnouncementPayload>, id: Id)
    requires id in courses
    ensures var r := Dispatch(courses, list);
            && r.courses[id].info == courses[id].info
            && r.courses[id].permissions == courses[id].permissions
            && r.courses[id].assignmentStore == courses[id].assignmentStore
            && (r.Completed? ==>
                  r.courses[id].announcementStore == PutAll(courses[id].announcementStore, EntriesFor(list, id)))
    decreases |list|
  {
    if |list| > 0 {
      var p := list[0];
      if Routable(courses, p) {
        var owner := Owner(p).value;
        var added := AddAnnouncement(courses[owner], AnnouncementEntry(p));
        var grown := courses[owner := added.course];
        DispatchFilesByOwner(grown, list[1..], id);
      }
    }
  }

  /**
   An aborted dispatch keeps the writes made before the throw: when the
   k-th announcement is the first that cannot be filed, every course's
   store has received exactly the announcements before it filed under
   that course.
   */
  lemma {:induction false} DispatchAbortKeepsPrefix(courses: CourseMap, list: seq<AnnouncementPayload>, k: nat, id: Id)
    requires k < |list| && !Routable(courses, list[k])
    requires forall i :: 0 <= i < k ==> Routable(courses, list[i])
    requires id in courses
    ensures Dispatch(courses, list).Aborted?
    ensures Dispatch(courses, list).courses[id].announcementStore
      == PutAll(courses[id].announcementStore, EntriesFor(list[..k], id))
    decreases k
  {
    if k == 0 {
      assert list[..0] == [];
    } else {
      var grown := Filed(courses, list[0]);
      DispatchStep(courses, list);
      FiledStore(courses, list[0], id);
      forall i | 0 <= i < k - 1
        ensures Routable(grown, list[1..][i])
      {
        RoutableKeys(grown, courses, list[i + 1]);
      }
      RoutableKeys(grown, courses, list[k]);
      DispatchAbortKeepsPrefix(grown, list[1..], k - 1, id);
      EntriesForPrefixStep(list, k, id, courses[id].announcementStore);
    }
  }

  /** The registry after the loop has filed one announcement. */
  function Filed(courses: CourseMap, p: AnnouncementPayload): (r: CourseMap)
    requires Routable(courses, p)
    ensures r.Keys == courses.Keys
  {
    var owner := Owner(p).value;
    courses[owner := AddAnnouncement(courses[owner], AnnouncementEntry(p)).course]
  }

  /** Whether an announcement can be filed depends only on which courses exist. */
  lemma RoutableKeys(a: CourseMap, b: CourseMap, p: AnnouncementPayload)
    requires a.Keys == b.Keys
    ensures Routable(a, p) <==> Routable(b, p)
  {
  }

  /** One turn of the dispatch loop on a fileable announcement. */
  lemma DispatchStep(courses: CourseMap, list: seq<AnnouncementPayload>)
    requires |list| > 0 && Routable(courses, list[0])
    ensures var grown := Filed(courses, list[0]);
            && Dispatch(courses, list).Aborted? == Dispatch(grown, list[1..]).Aborted?
            && Dispatch(courses, list).courses == Dispatch(grown, list[1..]).courses
  {
  }

  /** Filing an announcement writes it into its owner's store and no other. */
  lemma FiledStore(courses: CourseMap, p: AnnouncementPayload, id: Id)
    requires Routable(courses, p) && id in courses
    ensures Filed(courses, p)[id].announcementStore ==
      if Owner(p) == Some(id) then Put(courses[id].announcementStore, AnnouncementEntry(p))
      else courses[id].announcementStore
  {
  }

  /**
   Filing a prefix one announcement at a time: writing the prefix's
   entries for a course is writing the first one (when it is filed under
   that course) and then the rest of the prefix.
   */
  lemma EntriesForPrefixStep(list: seq<AnnouncementPayload>, k: nat, id: Id, s: Store<Announcement>)
    requires 0 < k <= |list|
    ensures PutAll(s, EntriesFor(list[..k], id)) ==
      PutAll(if Owner(list[0]) == Some(id) then Put(s, AnnouncementEntry(list[0])) else s,
             EntriesFor(list[1..][..k - 1], id))
  {
    assert list[..k][1..] == list[1..][..k - 1];
    assert list[..k][0] == list[0];
    var rest := EntriesFor(list[1..][..k - 1], id);
    if Owner(list[0]) == Some(id) {
      var e := AnnouncementEntry(list[0]);
      assert EntriesFor(list[..k], id) == [e] + rest;
      assert ([e] + rest)[1..] == rest;
    }
  }


  /**
   An announcement the loop cannot file makes the stage throw: its context
   code is nullish (`split` of line 163 throws), does not parse (the `NaN`
   key of line 165), or names no course of the registry (line 165).
   */
  lemma DispatchThrowsOnUnknownCourse(courses: CourseMap, list: seq<AnnouncementPayload>, i: nat)
    requires i < |list|
    requires || list[i].contextCode.IsNullish()
             || (list[i].contextCode.Val? && ParseContextCode(list[i].contextCode.value).None?)
             || (list[i].contextCode.Val? &&
                 forall id :: id in courses ==> ParseContextCode(list[i].contextCode.value) != Some(id as int))
    ensures Dispatch(courses, list).Aborted?
  {
    assert !Routable(courses, list[i]);
  }

  /**
   The stage: one request with the context-code query. A rejected request
   throws before anything is written; a fulfilled one is dispatched.
   */
  function AnnouncementStage(courses: CourseMap, fetch: string -> Settled<seq<AnnouncementPayload>>): (r: Outcome)
    ensures fetch(ContextCodeQuery(courses)).Rejected? ==> r.Aborted? && r.courses == courses
    ensures fetch(ContextCodeQuery(courses)).Fulfilled? ==> r == Dispatch(courses, fetch(ContextCodeQuery(courses)).value)
    ensures r.courses.Keys == courses.Keys
    ensures r.Completed? ==> r.count == 0
  {
    match fetch(ContextCodeQuery(courses))
    case Rejected(why) => Aborted(courses, why)
    case Fulfilled(list) => Dispatch(courses, list)
  }

  /** The stage as written: the query is built by the `+=` loop before the request is made. */
  method UpdateAnnouncements(courses: CourseMap, fetch: string -> Settled<seq<AnnouncementPayload>>)
    returns (r: Outcome)
    ensures r == AnnouncementStage(courses, fetch)
  {
    var query := BuildContextCodes(courses);
    match fetch(query)
    case Rejected(why) =>
      r := Aborted(courses, why);
    case Fulfilled(list) =>
      r := Dispatch(courses, list);
  }
}

=== FILE: assignment_sync.dfy ===
/**
 `Canvas.updateAssignments`: one assignments request per active course
 allowed to read grades, joined with settle-all; every assignment of a
 fulfilled request is written into its course's assignment store.
 */
module AssignmentSync {
  import opened JsValues
  import opened RecordStore
  import opened Courses
  import opened Registry

  const ReadGrades: string := "read_grades"

  // ---------------------------------------------------------------------------
  // Assignment records: lines 176-189

  /** The `submission` object of an assignment; dates are milliseconds since the epoch. */
  datatype SubmissionPayload = SubmissionPayload(
    id: JsVal<nat>,
    grade: JsVal<string>,
    score: JsVal<real>,
    submittedAt: JsVal<int>,
    assignmentId: JsVal<nat>,
    workflowState: JsVal<string>,
    gradedAt: JsVal<int>,
    late: JsVal<bool>,
    missing: JsVal<bool>,
    attachments: JsVal<seq<Json>>)

  /** One element of `/api/v1/courses/<id>/assignments`. */
  datatype AssignmentPayload = AssignmentPayload(
    id: Id,
    position: int,
    name: JsVal<string>,
    description: JsVal<string>,
    dueAt: JsVal<int>,
    unlockAt: JsVal<int>,
    omitFromFinalGrade: JsVal<bool>,
    allowedAttempts: JsVal<int>,
    hasSubmittedSubmissions: JsVal<bool>,
    htmlUrl: JsVal<string>,
    submission: JsVal<SubmissionPayload>,
    submissionsDownloadUrl: JsVal<string>,
    pointsPossible: JsVal<real>)

  /** The submission kept when the assignment carries none. */
  const NoSubmission: Submission :=
    Submission(Null, Null, Val(-1.0), Undefined, Undefined, Null, false, Undefined, Val(false), Val(false), Null, [])

  /**
   The submission object of the record: the payload's fields with the
   assignment's points and download link, or `NoSubmission` when the
   payload has none. An array of attachments is kept as it is (an empty
   array is truthy); anything else becomes the empty list.
   */
  function SubmissionOf(data: JsVal<SubmissionPayload>, possiblePoints: JsVal<real>, download: JsVal<string>): Submission {
    match data
    case Val(s) =>
      Submission(s.id, s.grade, s.score, possiblePoints, ToDate(s.submittedAt), s.assignmentId,
                 s.workflowState == Val("graded"), ToDate(s.gradedAt), s.late, s.missing, download,
                 if s.attachments.Val? then s.attachments.value else [])
    case _ => NoSubmission
  }

  /** `!doesNotCount`: only an explicit `true` makes an assignment not count. */
  function Counts(omit: JsVal<bool>): bool {
    !(omit == Val(true))
  }

  /** The record handed to `addAssignment`, split into its id and the rest. */
  function AssignmentEntry(p: AssignmentPayload): Entry<Assignment> {
    Entry(p.id, Assignment(p.position, p.name, p.description, ToDate(p.dueAt), ToDate(p.unlockAt),
                           Counts(p.omitFromFinalGrade), p.allowedAttempts, p.hasSubmittedSubmissions,
                           p.htmlUrl, SubmissionOf(p.submission, p.pointsPossible, p.submissionsDownloadUrl)))
  }

  /**
   The record defaults: an assignment counts unless it is explicitly
   omitted from the final grade; a missing submission becomes a null id and
   grade, score -1, not graded, not late, not missing, no attachments and
   a null download link; a submission is graded exactly when its workflow
   state is the string `graded`; the dates are never undefined.
   */
  lemma AssignmentEntryDefaults(p: AssignmentPayload)
    ensures AssignmentEntry(p).id == p.id && AssignmentEntry(p).rest.position == p.position
    ensures AssignmentEntry(p).rest.counts <==> !(p.omitFromFinalGrade.Val? && p.omitFromFinalGrade.value)
    ensures !AssignmentEntry(p).rest.dueDate.Undefined? && !AssignmentEntry(p).rest.unlockDate.Undefined?
    ensures p.submission.IsNullish() ==>
      var s := AssignmentEntry(p).rest.submission;
      && s.id == Null && s.grade == Null && s.score == Val(-1.0)
      && !s.graded && s.late == Val(false) && s.missing == Val(false)
      && s.attachments == [] && s.download == Null
    ensures p.submission.Val? ==>
      var s := AssignmentEntry(p).rest.submission;
      && (s.graded <==> p.submission.value.workflowState == Val("graded"))
      && s.possiblePoints == p.pointsPossible
      && s.download == p.submissionsDownloadUrl
      && (p.submission.value.attachments.IsNullish() ==> s.attachments == [])
  {
  }

  /** The ids of the assignments a request returned. */
  function ReturnedIds(list: seq<AssignmentPayload>): set<Id> {
    set i | 0 <= i < |list| :: list[i].id
  }

  /** The records built from a request's answer: one per returned assignment, under its own id. */
  function AssignmentEntries(list: seq<AssignmentPayload>): (es: seq<Entry<Assignment>>)
    ensures |es| == |list|
    ensures EntryIds(es) == ReturnedIds(list)
  {
    var es := seq(|list|, i requires 0 <= i < |list| => AssignmentEntry(list[i]));
    assert forall i :: 0 <= i < |list| ==> es[i].id == list[i].id;
    assert forall k :: k in EntryIds(es) ==> k in ReturnedIds(list);
    assert forall k :: k in ReturnedIds(list) ==> k in EntryIds(es);
    es
  }

  /**
   The loop of `updateCourseAssignments` for one course: every assignment
   written into the store in order, the as-written "newly added" answers
   summed (always 0), nothing else touched.
   */
  function AddAllAssignments(c: Course, list: seq<AssignmentPayload>): (r: Stepped)
    ensures r.course.assignmentStore == PutAll(c.assignmentStore, AssignmentEntries(list))
    ensures r.course.info == c.info && r.course.permissions == c.permissions
    ensures r.course.announcementStore == c.announcementStore
    ensures r.count == 0
    decreases |list|
  {
    if |list| == 0 then Stepped(c, 0)
    else
      var e := AssignmentEntry(list[0]);
      var added := AddAssignment(c, e);
      assert added.course.assignmentStore == Put(c.assignmentStore, e);
      assert AssignmentEntries(list)[1..] == AssignmentEntries(list[1..]);
      var rest := AddAllAssignments(added.course, list[1..]);
      Stepped(rest.course, rest.count + if added.isNew then 1 else 0)
  }

  // ---------------------------------------------------------------------------
  // The fan-out: lines 193-198

  /** One request's effect on its course: a fulfilled one files every assignment it returned. */
  function ApplyAssignments(answer: Settled<seq<AssignmentPayload>>, c: Course): Stepped {
    match answer
    case Fulfilled(list) => AddAllAssignments(c, list)
    case Rejected(_) => Stepped(c, 0)
  }

  function AssignmentStep(fetch: Id -> Settled<seq<AssignmentPayload>>): (Id, Course) -> Stepped {
    (id: Id, c: Course) => ApplyAssignments(fetch(id), c)
  }

  /** `course.active && course.hasPermission('read_grades')`. */
  predicate IsTarget(c: Course) {
    c.info.active && HasPermission(c, ReadGrades)
  }

  function MayReadGrades(courses: CourseMap): Id -> bool {
    (id: Id) => id in courses && IsTarget(courses[id])
  }

  /** The courses whose assignments are requested, in enumeration order. */
  function AssignmentTargets(courses: CourseMap): seq<Id> {
    FilterIds(SortedKeys(courses.Keys), MayReadGrades(courses))
  }

  /** Exactly the active courses holding `read_grades` are asked, each once. */
  lemma AssignmentTargetsExact(courses: CourseMap)
    ensures forall id :: id in AssignmentTargets(courses) <==> id in courses && IsTarget(courses[id])
    ensures Distinct(AssignmentTargets(courses))
  {
    FilterIdsIncreasing(SortedKeys(courses.Keys), MayReadGrades(courses));
    IncreasingIsDistinct(AssignmentTargets(courses));
  }

  /** Every assignment request reports 0. */
  lemma AssignmentStepCountZero(fetch: Id -> Settled<seq<AssignmentPayload>>)
    ensures forall id, c :: AssignmentStep(fetch)(id, c).count == 0
  {
    forall id, c ensures AssignmentStep(fetch)(id, c).count == 0 {
      assert AssignmentStep(fetch)(id, c) == ApplyAssignments(fetch(id), c);
    }
  }

  /** The fan-out over the targets, one course at a time. */
  lemma AssignmentFanOutAt(courses: CourseMap, fetch: Id -> Settled<seq<AssignmentPayload>>, id: Id)
    requires id in courses
    ensures forall i :: 0 <= i < |AssignmentTargets(courses)| ==> AssignmentTargets(courses)[i] in courses
    ensures var r := ApplyEach(courses, AssignmentTargets(courses), AssignmentStep(fetch)).courses;
            && (IsTarget(courses[id]) && fetch(id).Fulfilled? ==>
                  r[id] == AddAllAssignments(courses[id], fetch(id).value).course)
            && (!(IsTarget(courses[id]) && fetch(id).Fulfilled?) ==> r[id] == courses[id])
  {
    var ids := AssignmentTargets(courses);
    AssignmentTargetsExact(courses);
    ApplyEachIsParallel(courses, ids, AssignmentStep(fetch));
    assert id in ids <==> IsTarget(courses[id]);
    assert AssignmentStep(fetch)(id, courses[id]) == ApplyAssignments(fetch(id), courses[id]);
  }

  /**
   The stage. A target course whose request was fulfilled has every
   returned assignment written into its store and nothing else changed; a
   course that is not a target, or whose request was rejected, is left as
   it was; the count is always 0.
   */
  function UpdateAssignments(courses: CourseMap, fetch: Id -> Settled<seq<AssignmentPayload>>): (r: Applied)
    ensures r.courses.Keys == courses.Keys
    ensures forall id :: id in courses && IsTarget(courses[id]) && fetch(id).Fulfilled? ==>
      r.courses[id] == AddAllAssignments(courses[id], fetch(id).value).course
    ensures forall id :: id in courses && !(IsTarget(courses[id]) && fetch(id).Fulfilled?) ==>
      r.courses[id] == courses[id]
    ensures r.count == 0
  {
    var ids := AssignmentTargets(courses);
    AssignmentTargetsExact(courses);
    AssignmentStepCountZero(fetch);
    ApplyEachCountZero(courses, ids, AssignmentStep(fetch));
    var r := ApplyEach(courses, ids, AssignmentStep(fetch));
    assert forall id :: id in courses && IsTarget(courses[id]) && fetch(id).Fulfilled? ==>
      r.courses[id] == AddAllAssignments(courses[id], fetch(id).value).course
    by {
      forall id | id in courses && IsTarget(courses[id]) && fetch(id).Fulfilled? {
        AssignmentFanOutAt(courses, fetch, id);
      }
    }
    assert forall id :: id in courses && !(IsTarget(courses[id]) && fetch(id).Fulfilled?) ==> r.courses[id] == courses[id]
    by {
      forall id | id in courses && !(IsTarget(courses[id]) && fetch(id).Fulfilled?) {
        AssignmentFanOutAt(courses, fetch, id);
      }
    }
    r
  }

  /**
   Only targets are asked: a course's result depends on nothing but its own
   request, and not even on that unless it is a target. So two request
   functions that agree on the target courses give the same registry.
   */
  lemma UpdateAssignmentsAsksOnlyTargets(courses: CourseMap, f: Id -> Settled<seq<AssignmentPayload>>,
                                         g: Id -> Settled<seq<AssignmentPayload>>, id: Id)
    requires id in courses && (IsTarget(courses[id]) ==> f(id) == g(id))
    ensures UpdateAssignments(courses, f).courses[id] == UpdateAssignments(courses, g).courses[id]
  {
  }

  /**
   The assignment store of a course after the stage: the old records plus
   the returned ones, the last returned record winning for a repeated id.
   */
  lemma UpdateAssignmentsStore(courses: CourseMap, fetch: Id -> Settled<seq<AssignmentPayload>>, id: Id, k: Id)
    requires id in courses && IsTarget(courses[id]) && fetch(id).Fulfilled?
    ensures var store := UpdateAssignments(courses, fetch).courses[id].assignmentStore;
            var es := AssignmentEntries(fetch(id).value);
            && store.Keys == courses[id].assignmentStore.Keys + ReturnedIds(fetch(id).value)
            && (k in store && LastIndexOf(es, k) >= 0 ==>
                  store[k] == AssignmentEntry(fetch(id).value[LastIndexOf(es, k)]).rest)
            && (k in store && LastIndexOf(es, k) < 0 ==> store[k] == courses[id].assignmentStore[k])
  {
    var es := AssignmentEntries(fetch(id).value);
    PutAllKeys(courses[id].assignmentStore, es);
    var store := UpdateAssignments(courses, fetch).courses[id].assignmentStore;
    if k in store {
      PutAllLastWins(courses[id].assignmentStore, es, k);
    }
  }
}

=== FILE: course.dfy ===
/**
 The `Course` class of canvas.mjs: the fields copied from the course
 listing, a permission object, and two record stores (announcements and
 assignments), together with the records those stores hold.
 */
module Courses {
  import opened JsValues
  import opened RecordStore

  /** An author as the announcement record keeps it. */
  datatype Author = Author(id: JsVal<nat>, name: JsVal<string>, link: JsVal<string>)

  /** An announcement minus its `id` (the id is the store key). */
  datatype Announcement = Announcement(
    position: int,
    title: JsVal<string>,
    message: JsVal<string>,
    created: JsVal<int>,
    read: bool,
    author: Author,
    link: JsVal<string>)

  /** The submission nested in an assignment record. */
  datatype Submission = Submission(
    id: JsVal<nat>,
    grade: JsVal<string>,
    score: JsVal<real>,
    possiblePoints: JsVal<real>,
    submissionDate: JsVal<int>,
    assignmentId: JsVal<nat>,
    graded: bool,
    gradedDate: JsVal<int>,
    late: JsVal<bool>,
    missing: JsVal<bool>,
    download: JsVal<string>,
    attachments: seq<Json>)

  /** An assignment minus its `id` (the id is the store key). */
  datatype Assignment = Assignment(
    position: int,
    name: JsVal<string>,
    description: JsVal<string>,
    dueDate: JsVal<int>,
    unlockDate: JsVal<int>,
    counts: bool,
    allowedAttempts: JsVal<int>,
    submitted: JsVal<bool>,
    link: JsVal<string>,
    submission: Submission)

  /** The term object a course keeps: its name and date range. */
  datatype Term = Term(name: JsVal<string>, start: JsVal<int>, end: JsVal<int>)

  /** The fields the `Course` constructor copies out of its parameter object. */
  datatype CourseInfo = CourseInfo(
    id: Id,
    name: JsVal<string>,
    startDate: JsVal<int>,
    active: bool,
    code: JsVal<string>,
    calendarLink: JsVal<string>,
    term: Term,
    courseImg: JsVal<string>,
    totalStudents: JsVal<int>,
    teachers: Json,
    tabs: Json)

  type Permissions = map<string, bool>

  datatype Course = Course(
    info: CourseInfo,
    permissions: Permissions,
    announcementStore: Store<Announcement>,
    assignmentStore: Store<Assignment>)

  function AnnouncementPosition(a: Announcement): int { a.position }

  function AssignmentPosition(a: Assignment): int { a.position }

  /** `hasPermission(type)`: the stored flag, and `false` for a permission never granted. */
  function HasPermission(c: Course, kind: string): (granted: bool)
    ensures granted ==> kind in c.permissions
    ensures kind in c.permissions ==> (granted <==> c.permissions[kind])
  {
    if kind in c.permissions then c.permissions[kind] else false
  }

  /** `new Course(params)`: the listing fields, no permissions, both stores empty. */
  function NewCourse(info: CourseInfo): (c: Course)
    ensures c.info == info
    ensures forall kind :: !HasPermission(c, kind)
    ensures |c.announcementStore| == 0 && |c.assignmentStore| == 0
  {
    Course(info, map[], map[], map[])
  }

  /** `updatePermissons(permissions)`: the permission object is replaced wholesale. */
  function UpdatePermissions(c: Course, perms: Permissions): (r: Course)
    ensures forall kind :: HasPermission(r, kind) == (kind in perms && perms[kind])
    ensures r.info == c.info
    ensures r.announcementStore == c.announcementStore && r.assignmentStore == c.assignmentStore
  {
    c.(permissions := perms)
  }

  /** Replacement is wholesale: only the last permission object counts. */
  lemma UpdatePermissionsLastWins(c: Course, first: Permissions, second: Permissions)
    ensures UpdatePermissions(UpdatePermissions(c, first), second) == UpdatePermissions(c, second)
  {
  }

  /** A course after one record write, with the add's answer. */
  datatype AddResult = AddResult(course: Course, isNew: bool)

  /**
   `addAnnouncement(announcement)` as written: the store maps the id to the
   record without its id, every other key and field is kept, and the
   "newly added" answer is always `false`.
   */
  function AddAnnouncement(c: Course, e: Entry<Announcement>): (r: AddResult)
    ensures r.course.announcementStore.Keys == c.announcementStore.Keys + {e.id}
    ensures r.course.announcementStore[e.id] == e.rest
    ensures forall k :: k in c.announcementStore && k != e.id ==>
      r.course.announcementStore[k] == c.announcementStore[k]
    ensures r.course.info == c.info && r.course.permissions == c.permissions
    ensures r.course.assignmentStore == c.assignmentStore
    ensures !r.isNew
  {
    var added := AddAsWritten(c.announcementStore, e);
    AddResult(c.(announcementStore := added.store), added.isNew)
  }

  /** `addAssignment(assignment)` as written; same shape as `AddAnnouncement`. */
  function AddAssignment(c: Course, e: Entry<Assignment>): (r: AddResult)
    ensures r.course.assignmentStore.Keys == c.assignmentStore.Keys + {e.id}
    ensures r.course.assignmentStore[e.id] == e.rest
    ensures forall k :: k in c.assignmentStore && k != e.id ==>
      r.course.assignmentStore[k] == c.assignmentStore[k]
    ensures r.course.info == c.info && r.course.permissions == c.permissions
    ensures r.course.announcementStore == c.announcementStore
    ensures !r.isNew
  {
    var added := AddAsWritten(c.assignmentStore, e);
    AddResult(c.(assignmentStore := added.store), added.isNew)
  }

  /** `addAnnouncement` with the answer its doc comment promises: was the id absent before? */
  function AddAnnouncementIntended(c: Course, e: Entry<Announcement>): (r: AddResult)
    ensures r.isNew <==> e.id !in c.announcementStore
    ensures r.course == AddAnnouncement(c, e).course
  {
    var added := AddIntended(c.announcementStore, e);
    AddResult(c.(announcementStore := added.store), added.isNew)
  }

  /** `addAssignment` with the intended answer. */
  function AddAssignmentIntended(c: Course, e: Entry<Assignment>): (r: AddResult)
    ensures r.isNew <==> e.id !in c.assignmentStore
    ensures r.course == AddAssignment(c, e).course
  {
    var added := AddIntended(c.assignmentStore, e);
    AddResult(c.(assignmentStore := added.store), added.isNew)
  }

  /**
   Deduplication by id: adding two records with the same id leaves one
   stored record, the second; the second add is never reported as new,
   and with the intended answer the first is new exactly when the id was
   absent.
   */
  lemma {:induction false} AddAnnouncementTwice(c: Course, id: Id, a1: Announcement, a2: Announcement)
    ensures var c1 := AddAnnouncement(c, Entry(id, a1)).course;
            var c2 := AddAnnouncement(c1, Entry(id, a2)).course;
            && c2.announcementStore == c.announcementStore[id := a2]
            && |c2.announcementStore| == |c.announcementStore| + (if id in c.announcementStore then 0 else 1)
            && AddAnnouncementIntended(c, Entry(id, a1)).isNew == (id !in c.announcementStore)
            && !AddAnnouncementIntended(c1, Entry(id, a2)).isNew
  {
    var c1 := AddAnnouncement(c, Entry(id, a1)).course;
    var c2 := AddAnnouncement(c1, Entry(id, a2)).course;
    assert c2.announcementStore == c.announcementStore[id := a2];
    if id in c.announcementStore {
      assert c.announcementStore.Keys + {id} == c.announcementStore.Keys;
    } else {
      assert |(c.announcementStore.Keys + {id})| == |c.announcementStore.Keys| + 1;
    }
  }

  /** The `announcements` getter: the stored announcements ascending by position. */
  function Announcements(c: Course): (r: seq<Announcement>)
    ensures SortedBy(r, AnnouncementPosition)
    ensures multiset(r) == multiset(ValuesByKey(c.announcementStore))
  {
    View(c.announcementStore, AnnouncementPosition)
  }

  /** The `assignments` getter: the stored assignments ascending by position. */
  function Assignments(c: Course): (r: seq<Assignment>)
    ensures SortedBy(r, AssignmentPosition)
    ensures multiset(r) == multiset(ValuesByKey(c.assignmentStore))
  {
    View(c.assignmentStore, AssignmentPosition)
  }

  /** What `Course.toJSON` returns: the listing fields and both sorted views, no permissions. */
  datatype Snapshot = Snapshot(info: CourseInfo, announcements: seq<Announcement>, assignments: seq<Assignment>)

  function ToJson(c: Course): (s: Snapshot)
    ensures s.info == c.info
    ensures SortedBy(s.announcements, AnnouncementPosition)
    ensures multiset(s.announcements) == multiset(ValuesByKey(c.announcementStore))
    ensures SortedBy(s.assignments, AssignmentPosition)
    ensures multiset(s.assignments) == multiset(ValuesByKey(c.assignmentStore))
  {
    Snapshot(c.info, Announcements(c), Assignments(c))
  }

  /** Two courses that differ only in permissions serialise identically. */
  lemma ToJsonIgnoresPermissions(c: Course, perms: Permissions)
    ensures ToJson(UpdatePermissions(c, perms)) == ToJson(c)
  {
  }
}

=== FILE: js_values.dfy ===
/**
 The JavaScript values the Canvas client passes around, made explicit.

 - `JsVal<T>` keeps `undefined` and `null` apart, because the client
   produces both on purpose (a missing term yields `undefined` dates, a
   missing due date yields `null`).
 - `Json` stands for payload pieces the client copies through unchanged
   (teachers, tabs, attachments).
 - `Option<T>` is a plain optional value (a `parseInt` result that may be NaN).
 - `Settled<T>` is the outcome of one awaited request against the remote API.
 */
module JsValues {

  /** A JavaScript value that may be `undefined` or `null`. */
  datatype JsVal<+T> = Undefined | Null | Val(value: T) {

    /** `x == null` in JavaScript: true for both `null` and `undefined`. */
    predicate IsNullish() {
      !Val?
    }
  }

  /** A JSON value the client never looks into. */
  datatype Json =
    | JNull
    | JBool(b: bool)
    | JNum(n: int)
    | JStr(s: string)
    | JArr(items: seq<Json>)
    | JObj(fields: map<string, Json>)

  datatype Option<+T> = None | Some(value: T)

  /** One request's outcome, as `Promise.allSettled` or `await` sees it. */
  datatype Settled<+T> = Fulfilled(value: T) | Rejected(reason: string)
}

=== FILE: record_store.dfy ===
/**
 The id-keyed record store a course keeps for its announcements and for its
 assignments (`_announcements` / `_assignments` in canvas.mjs).

 A store maps a record id to the record with its `id` field split off.
 Writes overwrite on collision. Reads list the values the way
 `Object.values` does (integer keys ascending), then sort them ascending by
 `position` with a stable sort, as `Array.prototype.sort` does.
 */
module RecordStore {

  type Id = nat

  type Store<R> = map<Id, R>

  /** An `id` key and the rest of a record, as `const {id, ...rest} = record` splits it. */
  datatype Entry<R> = Entry(id: Id, rest: R)

  // ---------------------------------------------------------------------------
  // Key order of Object.keys / Object.values / Object.entries

  predicate StrictlyIncreasing(s: seq<Id>) {
    forall i, j :: 0 <= i < j < |s| ==> s[i] < s[j]
  }

  /** `m` is the least element of `ks`. */
  predicate IsLeast(m: Id, ks: set<Id>) {
    m in ks && forall k :: k in ks ==> m <= k
  }

  lemma {:induction false} MinExists(ks: set<Id>)
    requires ks != {}
    ensures exists m :: IsLeast(m, ks)
    decreases ks
  {
    var x :| x in ks;
    var rest := ks - {x};
    var best := x;
    if rest != {} {
      MinExists(rest);
      var m :| IsLeast(m, rest);
      best := if x < m then x else m;
    }
    forall k | k in ks ensures best <= k {
      if k != x { assert k in rest; }
    }
    assert IsLeast(best, ks);
  }

  /** The least key of a non-empty key set. */
  function MinKey(ks: set<Id>): (m: Id)
    requires ks != {}
    ensures m in ks && forall k :: k in ks ==> m <= k
  {
    MinExists(ks);
    var m :| IsLeast(m, ks);
    m
  }

  /** The keys of an object with integer keys, in the order JavaScript enumerates them. */
  function SortedKeys(ks: set<Id>): (r: seq<Id>)
    ensures StrictlyIncreasing(r)
    ensures forall k :: k in r <==> k in ks
    ensures |r| == |ks|
    decreases ks
  {
    if ks == {} then []
    else
      var m := MinKey(ks);
      var rest := SortedKeys(ks - {m});
      assert forall k :: k in rest ==> m < k;
      [m] + rest
  }

  /** The values stored under `ks`, in the order of `ks`. */
  function ValuesAt<R>(s: Store<R>, ks: seq<Id>): (r: seq<R>)
    requires forall k :: k in ks ==> k in s
    ensures |r| == |ks|
    ensures forall i :: 0 <= i < |ks| ==> r[i] == s[ks[i]]
  {
    if |ks| == 0 then [] else [s[ks[0]]] + ValuesAt(s, ks[1..])
  }

  /** `Object.values(store)`. */
  function ValuesByKey<R>(s: Store<R>): (r: seq<R>)
    ensures |r| == |s|
    ensures forall i :: 0 <= i < |r| ==> r[i] == s[SortedKeys(s.Keys)[i]]
  {
    ValuesAt(s, SortedKeys(s.Keys))
  }

  // ---------------------------------------------------------------------------
  // Writes

  /** `store[id] = rest`: the entry for `id` is overwritten, every other key keeps its value. */
  function Put<R>(s: Store<R>, e: Entry<R>): (r: Store<R>)
    ensures r.Keys == s.Keys + {e.id}
    ensures r[e.id] == e.rest
    ensures forall k :: k in s && k != e.id ==> r[k] == s[k]
  {
    s[e.id := e.rest]
  }

  /** The id of every entry in `es`. */
  function EntryIds<R>(es: seq<Entry<R>>): set<Id> {
    set i | 0 <= i < |es| :: es[i].id
  }

  /** Writing entries one after the other. */
  function PutAll<R>(s: Store<R>, es: seq<Entry<R>>): Store<R>
    decreases |es|
  {
    if |es| == 0 then s else PutAll(Put(s, es[0]), es[1..])
  }

  /** The index of the last entry in `es` carrying `id`, or -1. */
  function LastIndexOf<R>(es: seq<Entry<R>>, id: Id): (i: int)
    ensures -1 <= i < |es|
    ensures i >= 0 ==> es[i].id == id
    ensures forall j :: i < j < |es| ==> es[j].id != id
  {
    if |es| == 0 then -1
    else if es[|es| - 1].id == id then |es| - 1
    else LastIndexOf(es[..|es| - 1], id)
  }

  lemma {:induction false} PutAllSnoc<R>(s: Store<R>, es: seq<Entry<R>>, e: Entry<R>)
    ensures PutAll(s, es + [e]) == Put(PutAll(s, es), e)
    decreases |es|
  {
    if |es| > 0 {
      assert (es + [e])[1..] == es[1..] + [e];
      PutAllSnoc(Put(s, es[0]), es[1..], e);
    }
  }

  lemma EntryIdsCons<R>(es: seq<Entry<R>>)
    requires |es| > 0
    ensures EntryIds(es) == {es[0].id} + EntryIds(es[1..])
  {
    forall k | k in EntryIds(es) ensures k in {es[0].id} + EntryIds(es[1..]) {
      var i :| 0 <= i < |es| && es[i].id == k;
      if i > 0 { assert es[1..][i - 1] == es[i]; }
    }
  }

  /** A run of writes leaves the old keys plus the written ids. */
  lemma {:induction false} PutAllKeys<R>(s: Store<R>, es: seq<Entry<R>>)
    ensures PutAll(s, es).Keys == s.Keys + EntryIds(es)
    decreases |es|
  {
    if |es| > 0 {
      EntryIdsCons(es);
      PutAllKeys(Put(s, es[0]), es[1..]);
    } else {
      assert EntryIds(es) == {};
    }
  }

  /**
   Last write wins: after a run of writes, a written id holds the last
   entry written for it, and an id nobody wrote keeps its old value.
   */
  lemma {:induction false} PutAllLastWins<R>(s: Store<R>, es: seq<Entry<R>>, k: Id)
    requires k in PutAll(s, es)
    ensures LastIndexOf(es, k) >= 0 ==> PutAll(s, es)[k] == es[LastIndexOf(es, k)].rest
    ensures LastIndexOf(es, k) < 0 ==> k in s && PutAll(s, es)[k] == s[k]
    decreases |es|
  {
    if |es| > 0 {
      var init := es[..|es| - 1];
      var e := es[|es| - 1];
      assert es == init + [e];
      PutAllSnoc(s, init, e);
      if k != e.id {
        assert LastIndexOf(es, k) == LastIndexOf(init, k);
        PutAllLastWins(s, init, k);
        var i := LastIndexOf(init, k);
        if i >= 0 { assert es[i] == init[i]; }
      }
    }
  }

  /** The "was it newly added" answer together with the updated store. */
  datatype Added<R> = Added(store: Store<R>, isNew: bool)

  /**
   `addAnnouncement` / `addAssignment` as canvas.mjs writes them: the
   presence test runs after the write, so it always finds the id.
   */
  function AddAsWritten<R>(s: Store<R>, e: Entry<R>): (r: Added<R>)
    ensures r.store == Put(s, e)
    ensures !r.isNew
  {
    var s' := Put(s, e);
    Added(s', !(e.id in s'))
  }

  /** The behaviour the doc comment of `addAnnouncement` describes: test first, then write. */
  function AddIntended<R>(s: Store<R>, e: Entry<R>): (r: Added<R>)
    ensures r.store == Put(s, e)
    ensures r.isNew <==> e.id !in s
    ensures |r.store| == |s| + (if r.isNew then 1 else 0)
  {
    var absent := e.id !in s;
    Added(Put(s, e), absent)
  }

  /**
   The two answers disagree exactly on a new id: as written a genuinely new
   record is reported as already present.
   */
  lemma AddAsWrittenMisreports<R>(s: Store<R>, e: Entry<R>)
    requires e.id !in s
    ensures AddIntended(s, e).isNew && !AddAsWritten(s, e).isNew
    ensures AddIntended(s, e).store == AddAsWritten(s, e).store
  {
  }

  // ---------------------------------------------------------------------------
  // Reads: the view sorted ascending by position

  predicate SortedBy<R>(s: seq<R>, pos: R -> int) {
    forall i, j :: 0 <= i < j < |s| ==> pos(s[i]) <= pos(s[j])
  }

  /** Putting an element no larger than the head in front keeps a sequence sorted. */
  lemma SortedCons<R>(x: R, s: seq<R>, pos: R -> int)
    requires SortedBy(s, pos)
    requires |s| == 0 || pos(x) <= pos(s[0])
    ensures SortedBy([x] + s, pos)
  {
    var r := [x] + s;
    forall i, j | 0 <= i < j < |r| ensures pos(r[i]) <= pos(r[j]) {
      if i == 0 && j > 1 {
        assert pos(s[0]) <= pos(s[j - 1]);
      }
    }
  }

  /** Insert `x` in front of the first element whose position is not smaller. */
  function Insert<R>(x: R, s: seq<R>, pos: R -> int): (r: seq<R>)
    requires SortedBy(s, pos)
    ensures SortedBy(r, pos)
    ensures multiset(r) == multiset(s) + multiset{x}
    ensures |r| == |s| + 1
    ensures r[0] == x || (|s| > 0 && r[0] == s[0])
  {
    if |s| == 0 || pos(x) <= pos(s[0]) then
      SortedCons(x, s, pos);
      [x] + s
    else
      var t := Insert(x, s[1..], pos);
      assert s == [s[0]] + s[1..];
      assert multiset(s) == multiset{s[0]} + multiset(s[1..]);
      SortedCons(s[0], t, pos);
      [s[0]] + t
  }

  /** Stable insertion sort by position, the comparator `(a, b) => a.position - b.position`. */
  function SortByPosition<R>(s: seq<R>, pos: R -> int): (r: seq<R>)
    ensures SortedBy(r, pos)
    ensures multiset(r) == multiset(s)
    ensures |r| == |s|
  {
    if |s| == 0 then []
    else
      assert s == [s[0]] + s[1..];
      Insert(s[0], SortByPosition(s[1..], pos), pos)
  }

  /**
   The `announcements` / `assignments` getter: every stored record exactly
   as often as it is stored, ascending by position.
   */
  function View<R>(s: Store<R>, pos: R -> int): (r: seq<R>)
    ensures SortedBy(r, pos)
    ensures multiset(r) == multiset(ValuesByKey(s))
    ensures |r| == |s|
  {
    SortByPosition(ValuesByKey(s), pos)
  }

  /** A record in the view is stored under some key. */
  lemma ViewElementStored<R>(s: Store<R>, pos: R -> int, x: R)
    requires x in View(s, pos)
    ensures exists k :: k in s && s[k] == x
  {
    var vals := ValuesByKey(s);
    var ks := SortedKeys(s.Keys);
    assert x in multiset(View(s, pos));
    assert x in multiset(vals);
    var i :| 0 <= i < |vals| && vals[i] == x;
    assert ks[i] in s && s[ks[i]] == x;
  }

  /** A stored record is in the view. */
  lemma ViewHasStored<R>(s: Store<R>, pos: R -> int, k: Id)
    requires k in s
    ensures s[k] in View(s, pos)
  {
    var vals := ValuesByKey(s);
    var ks := SortedKeys(s.Keys);
    var i :| 0 <= i < |ks| && ks[i] == k;
    assert vals[i] == s[k];
    assert s[k] in multiset(vals);
    assert s[k] in multiset(View(s, pos));
  }

  /** Every record of the view is stored under some key, and every stored record is in the view. */
  lemma ViewContents<R>(s: Store<R>, pos: R -> int)
    ensures forall x :: x in View(s, pos) ==> exists k :: k in s && s[k] == x
    ensures forall k :: k in s ==> s[k] in View(s, pos)
  {
    forall x | x in View(s, pos) ensures exists k :: k in s && s[k] == x {
      ViewElementStored(s, pos, x);
    }
    forall k | k in s ensures s[k] in View(s, pos) {
      ViewHasStored(s, pos, k);
    }
  }
}

=== FILE: refresh.dfy ===
/**
 `Canvas.update` and the course stage it starts with
 (`updateCourseObjects`): the course listing is reconciled into the
 registry, every course's permissions are refreshed, then announcements and
 assignments are fetched. The three stages run one after the other; a
 stage that throws ends the update, and what the earlier stages wrote stays
 written.

 The server is a parameter: `Remote` says what every request the update
 can make would answer.
 */
module Refresh {
  import opened JsValues
  import opened RecordStore
  import opened Courses
  import opened Registry
  import opened AnnouncementSync
  import opened AssignmentSync

  /** The answers of the server to every request of one update. */
  datatype Remote = Remote(
    courseListing: Settled<seq<CoursePayload>>,
    permissions: Id -> Settled<Permissions>,
    announcements: string -> Settled<seq<AnnouncementPayload>>,
    assignments: Id -> Settled<seq<AssignmentPayload>>)

  /**
   `updateCourseObjects`: a rejected listing request throws with nothing
   written; otherwise the listing is reconciled and then every course,
   old or new, gets its permission request.
   */
  function UpdateCourseObjects(courses: CourseMap, yearStart: int, remote: Remote): (r: Outcome)
    ensures remote.courseListing.Rejected? ==> r == Aborted(courses, remote.courseListing.reason)
    ensures remote.courseListing.Fulfilled? ==>
      var listing := remote.courseListing.value;
      && r.Completed?
      && r.courses.Keys == courses.Keys + ListingIds(listing)
      && r.count == |ListingIds(listing) - courses.Keys|
  {
    match remote.courseListing
    case Rejected(why) => Aborted(courses, why)
    case Fulfilled(listing) =>
      var rec := Reconcile(courses, yearStart, listing);
      ReconcileCountsNewIds(courses, yearStart, listing);
      Completed(RefreshPermissions(rec.courses, remote.permissions), rec.added)
  }

  /**
   What the course stage leaves under one id: the course that was there, or
   else a fresh course from the id's first listing entry, with its
   permission object replaced by the answer to its permission request when
   that request is fulfilled. So an existing course keeps its fields and
   both stores, and only its permissions change.
   */
  lemma UpdateCourseObjectsAt(courses: CourseMap, yearStart: int, remote: Remote, id: Id)
    requires remote.courseListing.Fulfilled?
    requires id in courses || id in ListingIds(remote.courseListing.value)
    ensures var listing := remote.courseListing.value;
            var before := if id in courses then courses[id]
                          else NewCourse(CourseInfoOf(FirstWithId(listing, id), yearStart));
            var r := UpdateCourseObjects(courses, yearStart, remote);
            && id in r.courses
            && r.courses[id] == (if remote.permissions(id).Fulfilled?
                                 then UpdatePermissions(before, remote.permissions(id).value)
                                 else before)
  {
    var listing := remote.courseListing.value;
    if id in courses {
      ReconcileKeepsExisting(courses, yearStart, listing, id);
    } else {
      ReconcileInsertsFirst(courses, yearStart, listing, id);
    }
  }

  /** What `update()` resolves to: the three counts. */
  datatype Counts = Counts(courses: nat, announcements: nat, assignments: nat)

  /** An update that resolved, or one that rejected with the registry as the throw left it. */
  datatype UpdateResult = Updated(courses: CourseMap, counts: Counts) | Failed(courses: CourseMap, reason: string)

  /**
   When `update()` resolves: the listing request and the announcement
   request are fulfilled and every returned announcement can be filed. A
   rejected permission or assignment request is absorbed by
   `Promise.allSettled` and never makes the update fail.
   */
  predicate Resolves(courses: CourseMap, yearStart: int, remote: Remote) {
    && remote.courseListing.Fulfilled?
    && var m1 := UpdateCourseObjects(courses, yearStart, remote).courses;
       var answer := remote.announcements(ContextCodeQuery(m1));
       && answer.Fulfilled?
       && forall i :: 0 <= i < |answer.value| ==> Routable(m1, answer.value[i])
  }

  /**
   `update()`. No course is ever removed, whichever stage throws. A
   rejected listing leaves the registry as it was. When every stage
   completes, the registry holds the old courses and the listed ones, the
   course count is the number of newly listed ids, and the announcement
   and assignment counts are 0.
   */
  function Update(courses: CourseMap, yearStart: int, remote: Remote): (r: UpdateResult)
    ensures courses.Keys <= r.courses.Keys
    ensures remote.courseListing.Rejected? ==> r == Failed(courses, remote.courseListing.reason)
    ensures r.Updated? ==>
      var listing := remote.courseListing.value;
      && remote.courseListing.Fulfilled?
      && r.courses.Keys == courses.Keys + ListingIds(listing)
      && r.counts == Counts(|ListingIds(listing) - courses.Keys|, 0, 0)
  {
    match UpdateCourseObjects(courses, yearStart, remote)
    case Aborted(m, why) => Failed(m, why)
    case Completed(m1, added) =>
      match AnnouncementStage(m1, remote.announcements)
      case Aborted(m2, why) => Failed(m2, why)
      case Completed(m2, announced) =>
        var a := UpdateAssignments(m2, remote.assignments);
        Updated(a.courses, Counts(added, announced, a.count))
  }

  /**
   `update()` resolves exactly when `Resolves` holds; in every other case it
   rejects, with the registry as the failing stage left it.
   */
  lemma UpdateResolvesExactly(courses: CourseMap, yearStart: int, remote: Remote)
    ensures Update(courses, yearStart, remote).Updated? <==> Resolves(courses, yearStart, remote)
  {
    var first := UpdateCourseObjects(courses, yearStart, remote);
    if first.Completed? {
      var second := AnnouncementStage(first.courses, remote.announcements);
      assert Update(courses, yearStart, remote).Updated? <==> second.Completed?;
    }
  }

  /** `update()` as written: the announcement stage builds its query with the `+=` loop. */
  method RunUpdate(courses: CourseMap, yearStart: int, remote: Remote) returns (r: UpdateResult)
    ensures r == Update(courses, yearStart, remote)
  {
    var first := UpdateCourseObjects(courses, yearStart, remote);
    if first.Aborted? {
      return Failed(first.courses, first.reason);
    }
    var second := UpdateAnnouncements(first.courses, remote.announcements);
    if second.Aborted? {
      return Failed(second.courses, second.reason);
    }
    var a := UpdateAssignments(second.courses, remote.assignments);
    r := Updated(a.courses, Counts(first.count, second.count, a.count));
  }

  /**
   The stages after the listing never rewrite a course's listing fields:
   announcement writes leave `info` alone, whether or not the stage throws.
   */
  lemma AnnouncementStageKeepsInfo(m1: CourseMap, fetch: string -> Settled<seq<AnnouncementPayload>>, id: Id)
    requires id in m1
    ensures var m2 := AnnouncementStage(m1, fetch).courses;
            id in m2 && m2[id].info == m1[id].info
  {
    var query := ContextCodeQuery(m1);
    if fetch(query).Fulfilled? {
      DispatchFilesByOwner(m1, fetch(query).value, id);
    }
  }

  /** Nor do assignment writes. */
  lemma AssignmentStageKeepsInfo(m2: CourseMap, fetch: Id -> Settled<seq<AssignmentPayload>>, id: Id)
    requires id in m2
    ensures var m3 := UpdateAssignments(m2, fetch).courses;
            id in m3 && m3[id].info == m2[id].info
  {
  }

  /** Both later stages together. */
  lemma LaterStagesKeepInfo(m1: CourseMap, remote: Remote, id: Id)
    requires id in m1
    ensures var m2 := AnnouncementStage(m1, remote.announcements);
            && id in m2.courses && m2.courses[id].info == m1[id].info
            && (m2.Completed? ==>
                  var a := UpdateAssignments(m2.courses, remote.assignments);
                  id in a.courses && a.courses[id].info == m1[id].info)
  {
    var m2 := AnnouncementStage(m1, remote.announcements);
    AnnouncementStageKeepsInfo(m1, remote.announcements, id);
    AssignmentStageKeepsInfo(m2.courses, remote.assignments, id);
  }

  /** The course stage changes nothing but permissions in a course the reconciliation produced. */
  lemma CourseStageKeepsInfo(courses: CourseMap, yearStart: int, remote: Remote, id: Id)
    requires remote.courseListing.Fulfilled?
    requires id in courses || id in ListingIds(remote.courseListing.value)
    ensures var first := UpdateCourseObjects(courses, yearStart, remote);
            id in first.courses
            && first.courses[id].info == Reconcile(courses, yearStart, remote.courseListing.value).courses[id].info
  {
  }

  /** A course that was already known keeps the fields it was created with. */
  lemma UpdateKeepsCourseInfo(courses: CourseMap, yearStart: int, remote: Remote, id: Id)
    requires id in courses
    ensures var r := Update(courses, yearStart, remote);
            id in r.courses && r.courses[id].info == courses[id].info
  {
    var first := UpdateCourseObjects(courses, yearStart, remote);
    if first.Completed? {
      var listing := remote.courseListing.value;
      ReconcileKeepsExisting(courses, yearStart, listing, id);
      CourseStageKeepsInfo(courses, yearStart, remote, id);
      LaterStagesKeepInfo(first.courses, remote, id);
    }
  }

  /** A newly listed course is created from the first listing entry carrying its id. */
  lemma UpdateCreatesFromFirstEntry(courses: CourseMap, yearStart: int, remote: Remote, id: Id)
    requires remote.courseListing.Fulfilled?
    requires id !in courses && id in ListingIds(remote.courseListing.value)
    ensures var r := Update(courses, yearStart, remote);
            id in r.courses && r.courses[id].info == CourseInfoOf(FirstWithId(remote.courseListing.value, id), yearStart)
  {
    var listing := remote.courseListing.value;
    var first := UpdateCourseObjects(courses, yearStart, remote);
    ReconcileInsertsFirst(courses, yearStart, listing, id);
    CourseStageKeepsInfo(courses, yearStart, remote, id);
    LaterStagesKeepInfo(first.courses, remote, id);
  }

  /**
   Courses are deduplicated by id across updates: a second update that
   sees the same listing reports no new course.
   */
  lemma UpdateTwiceAddsNoCourse(courses: CourseMap, yearStart: int, remote: Remote, again: Remote)
    requires again.courseListing == remote.courseListing
    ensures var once := Update(courses, yearStart, remote);
            var twice := Update(once.courses, yearStart, again);
            once.Updated? && twice.Updated? ==> twice.counts.courses == 0
  {
    var once := Update(courses, yearStart, remote);
    var twice := Update(once.courses, yearStart, again);
    if once.Updated? && twice.Updated? {
      var listing := remote.courseListing.value;
      assert ListingIds(listing) - once.courses.Keys == {};
    }
  }
}

=== FILE: registry.dfy ===
/**
 The `courses` map of the `Canvas` class: folding a fresh course listing
 into it (`updateCourseObjects`, first half), fanning a per-course request
 out over it and joining the settled results (the permission refresh of
 `updateCourseObjects`, and `updateAssignments`), and querying it
 (`getCourses`).
 */
module Registry {
  import opened JsValues
  import opened Text
  import opened RecordStore
  import opened Courses

  type CourseMap = map<Id, Course>

  // ---------------------------------------------------------------------------
  // The course listing payload and the fields derived from it

  datatype TermPayload = TermPayload(name: JsVal<string>, startAt: JsVal<int>, endAt: JsVal<int>)

  datatype CalendarPayload = CalendarPayload(ics: JsVal<string>)

  /**
   One element of `/api/v1/courses`. Dates are already milliseconds since
   the epoch; the `enrollments` and `permissions` fields are read but never
   stored, so they are not kept here.
   */
  datatype CoursePayload = CoursePayload(
    id: Id,
    name: JsVal<string>,
    startAt: JsVal<int>,
    courseCode: JsVal<string>,
    calendar: JsVal<CalendarPayload>,
    term: JsVal<TermPayload>,
    imageDownloadUrl: JsVal<string>,
    totalStudents: JsVal<int>,
    teachers: Json,
    tabs: Json)

  /** `toDate(str)`: a nullish input gives `null`, anything else the date it denotes. */
  function ToDate(raw: JsVal<int>): (d: JsVal<int>)
    ensures !d.Undefined?
    ensures d.Val? <==> raw.Val?
    ensures d.Val? ==> d.value == raw.value
  {
    if raw.IsNullish() then Null else raw
  }

  /**
   `startDate >= yearStartDate`. JavaScript compares the two as numbers:
   a date is its millisecond value, `null` becomes 0 and `undefined`
   becomes NaN, which compares false.
   */
  function IsActive(startDate: JsVal<int>, yearStart: int): bool {
    match startDate
    case Val(ms) => ms >= yearStart
    case Null => 0 >= yearStart
    case Undefined => false
  }

  function TermOf(term: JsVal<TermPayload>): Term {
    match term
    case Val(t) => Term(t.name, ToDate(t.startAt), ToDate(t.endAt))
    case _ => Term(Null, Undefined, Undefined)
  }

  function CalendarLinkOf(calendar: JsVal<CalendarPayload>): JsVal<string> {
    match calendar
    case Val(c) => c.ics
    case _ => Val("")
  }

  /** The parameter object `updateCourseObjects` hands to `new Course`. */
  function CourseInfoOf(p: CoursePayload, yearStart: int): (info: CourseInfo)
    ensures info.id == p.id && info.code == p.courseCode && info.name == p.name
    // a course starting on or after the year start is active; a course
    // without a start date compares as the epoch
    ensures p.startAt.Val? ==> (info.active <==> p.startAt.value >= yearStart)
    ensures p.startAt.IsNullish() ==> (info.active <==> yearStart <= 0)
    ensures info.startDate == ToDate(p.startAt)
    // no term: a null name and undefined dates; a term: its name and its dates through `toDate`
    ensures p.term.IsNullish() ==> info.term == Term(Null, Undefined, Undefined)
    ensures p.term.Val? ==>
      && info.term.name == p.term.value.name
      && info.term.start == ToDate(p.term.value.startAt)
      && info.term.end == ToDate(p.term.value.endAt)
    // no calendar: an empty link
    ensures p.calendar.IsNullish() ==> info.calendarLink == Val("")
    ensures p.calendar.Val? ==> info.calendarLink == p.calendar.value.ics
    // the remaining listing fields are copied as they are
    ensures info.courseImg == p.imageDownloadUrl && info.totalStudents == p.totalStudents
    ensures info.teachers == p.teachers && info.tabs == p.tabs
  {
    var startDate := ToDate(p.startAt);
    CourseInfo(
      p.id, p.name, startDate, IsActive(startDate, yearStart), p.courseCode,
      CalendarLinkOf(p.calendar), TermOf(p.term), p.imageDownloadUrl,
      p.totalStudents, p.teachers, p.tabs)
  }

  // ---------------------------------------------------------------------------
  // Reconciliation: lines 108-129

  function ListingIds(listing: seq<CoursePayload>): set<Id> {
    if |listing| == 0 then {} else {listing[0].id} + ListingIds(listing[1..])
  }

  /** The first payload of the listing that carries `id`. */
  function FirstWithId(listing: seq<CoursePayload>, id: Id): (p: CoursePayload)
    requires id in ListingIds(listing)
    ensures p.id == id && p in listing
    ensures exists i :: 0 <= i < |listing| && listing[i] == p && forall j :: 0 <= j < i ==> listing[j].id != id
  {
    if listing[0].id == id then listing[0]
    else
      var p := FirstWithId(listing[1..], id);
      var i :| 0 <= i < |listing[1..]| && listing[1..][i] == p && forall j :: 0 <= j < i ==> listing[1..][j].id != id;
      assert listing[i + 1] == p;
      assert forall j :: 1 <= j < i + 1 ==> listing[j] == listing[1..][j - 1];
      p
  }

  datatype Reconciled = Reconciled(courses: CourseMap, added: nat)

  /** `this.courses[id] = newCourse` for a payload whose id is not yet present. */
  function Admit(courses: CourseMap, yearStart: int, p: CoursePayload): (r: CourseMap)
    ensures r.Keys == courses.Keys + {p.id}
  {
    courses[p.id := NewCourse(CourseInfoOf(p, yearStart))]
  }

  /**
   The listing loop of `updateCourseObjects`: a payload whose id is already
   present is skipped, an unseen id is inserted as a fresh course and
   counted.
   */
  function Reconcile(courses: CourseMap, yearStart: int, listing: seq<CoursePayload>): (r: Reconciled)
    ensures r.courses.Keys == courses.Keys + ListingIds(listing)
    decreases |listing|
  {
    if |listing| == 0 then Reconciled(courses, 0)
    else
      var p := listing[0];
      assert ListingIds(listing) == {p.id} + ListingIds(listing[1..]);
      if p.id in courses then
        Reconcile(courses, yearStart, listing[1..])
      else
        var admitted := Admit(courses, yearStart, p);
        var rest := Reconcile(admitted, yearStart, listing[1..]);
        Reconciled(rest.courses, rest.added + 1)
  }

  /** No course is replaced: an id already present keeps its `Course`, permissions and stores included. */
  lemma {:induction false} ReconcileKeepsExisting(courses: CourseMap, yearStart: int, listing: seq<CoursePayload>, id: Id)
    requires id in courses
    ensures Reconcile(courses, yearStart, listing).courses[id] == courses[id]
    decreases |listing|
  {
    if |listing| > 0 {
      var p := listing[0];
      if p.id in courses {
        ReconcileKeepsExisting(courses, yearStart, listing[1..], id);
      } else {
        ReconcileKeepsExisting(Admit(courses, yearStart, p), yearStart, listing[1..], id);
      }
    }
  }

  /** An id that was not present gets a fresh course built from its first payload in the listing. */
  lemma {:induction false} ReconcileInsertsFirst(courses: CourseMap, yearStart: int, listing: seq<CoursePayload>, id: Id)
    requires id !in courses && id in ListingIds(listing)
    ensures Reconcile(courses, yearStart, listing).courses[id]
      == NewCourse(CourseInfoOf(FirstWithId(listing, id), yearStart))
    decreases |listing|
  {
    var p := listing[0];
    if p.id in courses {
      ReconcileInsertsFirst(courses, yearStart, listing[1..], id);
    } else {
      var grown := Admit(courses, yearStart, p);
      if p.id == id {
        ReconcileKeepsExisting(grown, yearStart, listing[1..], id);
      } else {
        ReconcileInsertsFirst(grown, yearStart, listing[1..], id);
      }
    }
  }

  /** Listing one more id grows the set of new ids by one exactly when it was unknown. */
  lemma NewIdsStep(listed: set<Id>, known: set<Id>, x: Id)
    ensures x in known ==> ({x} + listed) - known == listed - known
    ensures x !in known ==> |({x} + listed) - known| == |listed - (known + {x})| + 1
  {
    if x !in known {
      assert ({x} + listed) - known == (listed - (known + {x})) + {x};
    }
  }

  /** The count `updateCourseObjects` returns is the number of listed ids that were not present before. */
  lemma {:induction false} ReconcileCountsNewIds(courses: CourseMap, yearStart: int, listing: seq<CoursePayload>)
    ensures Reconcile(courses, yearStart, listing).added == |ListingIds(listing) - courses.Keys|
    decreases |listing|
  {
    if |listing| > 0 {
      var p := listing[0];
      var tail := listing[1..];
      var listed := ListingIds(tail);
      assert ListingIds(listing) == {p.id} + listed;
      NewIdsStep(listed, courses.Keys, p.id);
      if p.id in courses {
        ReconcileCountsNewIds(courses, yearStart, tail);
      } else {
        var grown := Admit(courses, yearStart, p);
        ReconcileCountsNewIds(grown, yearStart, tail);
      }
    }
  }

  /** The same count, read off the registry: the ids the reconciliation added. */
  lemma ReconcileCountsAdded(courses: CourseMap, yearStart: int, listing: seq<CoursePayload>)
    ensures var r := Reconcile(courses, yearStart, listing);
            r.added == |r.courses.Keys - courses.Keys|
  {
    var r := Reconcile(courses, yearStart, listing);
    ReconcileCountsNewIds(courses, yearStart, listing);
    assert r.courses.Keys - courses.Keys == ListingIds(listing) - courses.Keys;
  }

  /** Reconciling the same listing twice adds nothing the second time and changes nothing. */
  lemma ReconcileIdempotent(courses: CourseMap, yearStart: int, listing: seq<CoursePayload>)
    ensures var once := Reconcile(courses, yearStart, listing);
            var twice := Reconcile(once.courses, yearStart, listing);
            twice.courses == once.courses && twice.added == 0
  {
    var once := Reconcile(courses, yearStart, listing);
    var twice := Reconcile(once.courses, yearStart, listing);
    ReconcileCountsAdded(once.courses, yearStart, listing);
    forall id | id in once.courses ensures twice.courses[id] == once.courses[id] {
      ReconcileKeepsExisting(once.courses, yearStart, listing, id);
    }
  }

  // ---------------------------------------------------------------------------
  // Per-course fan-out with a settle-all join

  /** Keeps the ids of `ks` that satisfy `keep`, in the order of `ks`. */
  function FilterIds(ks: seq<Id>, keep: Id -> bool): (r: seq<Id>)
    ensures forall id :: id in r <==> id in ks && keep(id)
    ensures |r| <= |ks|
    decreases |ks|
  {
    if |ks| == 0 then []
    else
      var front := ks[..|ks| - 1];
      var last := ks[|ks| - 1];
      assert ks == front + [last];
      var init := FilterIds(front, keep);
      if keep(last) then init + [last] else init
  }

  /** Filtering keeps the order of the ids it keeps. */
  lemma {:induction false} FilterIdsIncreasing(ks: seq<Id>, keep: Id -> bool)
    requires StrictlyIncreasing(ks)
    ensures StrictlyIncreasing(FilterIds(ks, keep))
    decreases |ks|
  {
    if |ks| > 0 {
      var front := ks[..|ks| - 1];
      var last := ks[|ks| - 1];
      var init := FilterIds(front, keep);
      FilterIdsIncreasing(front, keep);
      if keep(last) {
        forall id | id in init ensures id < last {
          var i :| 0 <= i < |front| && front[i] == id;
          assert ks[i] == id;
        }
        var r := init + [last];
        forall i, j | 0 <= i < j < |r| ensures r[i] < r[j] {
          if j < |init| {
            assert r[i] == init[i] && r[j] == init[j];
          } else {
            assert r[i] == init[i] && init[i] in init;
          }
        }
      }
    }
  }

  /** One step of a filter over a growing prefix. */
  lemma FilterIdsStep(ks: seq<Id>, keep: Id -> bool, n: nat, ids: seq<Id>)
    requires 0 < n <= |ks|
    requires ids == FilterIds(ks[..n - 1], keep)
    ensures FilterIds(ks[..n], keep) == if keep(ks[n - 1]) then ids + [ks[n - 1]] else ids
  {
    assert ks[..n][..n - 1] == ks[..n - 1];
  }

  /** What one per-course request did to its course, and the count it reported. */
  datatype Stepped = Stepped(course: Course, count: nat)

  datatype Applied = Applied(courses: CourseMap, count: nat)

  /**
   How a stage that can throw ends: with the courses and the count it
   accumulated, or with the courses as they stood when it threw (writes
   made before the throw stay made).
   */
  datatype Outcome = Completed(courses: CourseMap, count: nat) | Aborted(courses: CourseMap, reason: string)

  /**
   The per-course requests handled one after the other, each result written
   into its own course. This is the sequential reading of a
   `Promise.allSettled` fan-out over distinct courses.
   */
  function ApplyEach(courses: CourseMap, ids: seq<Id>, step: (Id, Course) -> Stepped): (r: Applied)
    requires forall i :: 0 <= i < |ids| ==> ids[i] in courses
    ensures r.courses.Keys == courses.Keys
    decreases |ids|
  {
    if |ids| == 0 then Applied(courses, 0)
    else
      var s := step(ids[0], courses[ids[0]]);
      var rest := ApplyEach(courses[ids[0] := s.course], ids[1..], step);
      Applied(rest.courses, rest.count + s.count)
  }

  predicate Distinct(ids: seq<Id>) {
    forall i, j :: 0 <= i < j < |ids| ==> ids[i] != ids[j]
  }

  /**
   The order of the fan-out does not matter: since every course is the
   target of at most one request, handling them in sequence gives every
   target exactly its own request's effect on its prior state and leaves
   every other course alone.
   */
  lemma {:induction false} ApplyEachIsParallel(courses: CourseMap, ids: seq<Id>, step: (Id, Course) -> Stepped)
    requires forall i :: 0 <= i < |ids| ==> ids[i] in courses
    requires Distinct(ids)
    ensures forall id :: id in courses ==>
      ApplyEach(courses, ids, step).courses[id] ==
        if id in ids then step(id, courses[id]).course else courses[id]
    decreases |ids|
  {
    if |ids| > 0 {
      var first := ids[0];
      var grown := courses[first := step(first, courses[first]).course];
      ApplyEachIsParallel(grown, ids[1..], step);
      assert first !in ids[1..] by {
        forall j | 0 <= j < |ids[1..]| ensures ids[1..][j] != first {
          assert ids[1..][j] == ids[j + 1];
        }
      }
      forall id | id in courses
        ensures ApplyEach(courses, ids, step).courses[id] ==
          if id in ids then step(id, courses[id]).course else courses[id]
      {
        assert id in ids <==> id == first || id in ids[1..] by {
          assert ids == [first] + ids[1..];
        }
      }
    }
  }

  /** A fan-out whose every request reports 0 reports 0. */
  lemma {:induction false} ApplyEachCountZero(courses: CourseMap, ids: seq<Id>, step: (Id, Course) -> Stepped)
    requires forall i :: 0 <= i < |ids| ==> ids[i] in courses
    requires forall id, c :: step(id, c).count == 0
    ensures ApplyEach(courses, ids, step).count == 0
    decreases |ids|
  {
    if |ids| > 0 {
      var s := step(ids[0], courses[ids[0]]);
      ApplyEachCountZero(courses[ids[0] := s.course], ids[1..], step);
    }
  }

  // ---------------------------------------------------------------------------
  // Permission refresh: lines 131-141

  /** One permission request's effect on its course: a fulfilled one replaces the permission object. */
  function ApplyPermissions(answer: Settled<Permissions>, c: Course): Course {
    match answer
    case Fulfilled(perms) => UpdatePermissions(c, perms)
    case Rejected(_) => c
  }

  function PermissionStep(fetch: Id -> Settled<Permissions>): (Id, Course) -> Stepped {
    (id: Id, c: Course) => Stepped(ApplyPermissions(fetch(id), c), 0)
  }

  lemma IncreasingIsDistinct(ids: seq<Id>)
    requires StrictlyIncreasing(ids)
    ensures Distinct(ids)
  {
  }

  /**
   A permission request for every known course, joined with settle-all: a
   course whose request was fulfilled has its permission object replaced
   by the returned one; a course whose request was rejected is left as it
   was.
   */
  function RefreshPermissions(courses: CourseMap, fetch: Id -> Settled<Permissions>): (r: CourseMap)
    ensures r.Keys == courses.Keys
    ensures forall id :: id in courses && fetch(id).Fulfilled? ==>
      r[id] == UpdatePermissions(courses[id], fetch(id).value)
    ensures forall id :: id in courses && fetch(id).Rejected? ==> r[id] == courses[id]
  {
    var ids := SortedKeys(courses.Keys);
    var step := PermissionStep(fetch);
    IncreasingIsDistinct(ids);
    ApplyEachIsParallel(courses, ids, step);
    var r := ApplyEach(courses, ids, step).courses;
    assert forall id :: id in courses ==> r[id] == ApplyPermissions(fetch(id), courses[id]) by {
      forall id | id in courses ensures r[id] == ApplyPermissions(fetch(id), courses[id]) {
        assert id in ids;
        assert r[id] == step(id, courses[id]).course;
      }
    }
    r
  }

  /**
   After the refresh a course grants exactly what its fulfilled request
   returned, keeps its old grants when the request was rejected, and
   changes in nothing but its permissions.
   */
  lemma RefreshPermissionsGrants(courses: CourseMap, fetch: Id -> Settled<Permissions>, id: Id, kind: string)
    requires id in courses
    ensures var r := RefreshPermissions(courses, fetch);
            && (fetch(id).Fulfilled? ==>
                  HasPermission(r[id], kind) == (kind in fetch(id).value && fetch(id).value[kind]))
            && (fetch(id).Rejected? ==> HasPermission(r[id], kind) == HasPermission(courses[id], kind))
            && r[id].info == courses[id].info
            && r[id].announcementStore == courses[id].announcementStore
            && r[id].assignmentStore == courses[id].assignmentStore
  {
  }

  // ---------------------------------------------------------------------------
  // getCourses: lines 203-218

  /** The parameters of `getCourses` once `active` has taken its default. */
  datatype CourseQuery = CourseQuery(active: bool, code: JsVal<string>)

  /** `code && ...`: only a non-empty string filters. */
  predicate FiltersByCode(q: CourseQuery) {
    q.code.Val? && q.code.value != ""
  }

  predicate PassesActive(q: CourseQuery, c: Course) {
    !q.active || c.info.active
  }

  /** A course for which `course.code.includes(code)` throws: its code is null or undefined. */
  predicate ThrowsOnCode(q: CourseQuery, c: Course) {
    PassesActive(q, c) && FiltersByCode(q) && c.info.code.IsNullish()
  }

  predicate Selected(q: CourseQuery, c: Course) {
    PassesActive(q, c) && (!FiltersByCode(q) || (c.info.code.Val? && Includes(c.info.code.value, q.code.value)))
  }

  datatype Query = Found(courses: CourseMap) | TypeError

  datatype Verdict = Throw | Keep | Skip

  /** The two `if` tests of the `getCourses` loop body for one course. */
  function Judge(q: CourseQuery, c: Course): (v: Verdict)
    ensures v.Throw? <==> ThrowsOnCode(q, c)
    ensures v.Keep? <==> Selected(q, c)
  {
    if q.active && !c.info.active then Skip
    else if FiltersByCode(q) && c.info.code.IsNullish() then Throw
    else if FiltersByCode(q) && !Includes(c.info.code.value, q.code.value) then Skip
    else Keep
  }

  /**
   `getCourses(params)`: the courses passing both filters, under their own
   keys. It throws when a course that passes the active filter has a null
   code while a code filter is given.
   */
  method GetCourses(courses: CourseMap, q: CourseQuery) returns (r: Query)
    ensures r.TypeError? <==> exists id :: id in courses && ThrowsOnCode(q, courses[id])
    ensures r.Found? ==> forall id :: id in r.courses ==> id in courses && r.courses[id] == courses[id]
    ensures r.Found? ==> forall id :: id in courses ==> (id in r.courses <==> Selected(q, courses[id]))
  {
    var keys := SortedKeys(courses.Keys);
    r := ScanKeys(courses, q, keys);
    if r.Found? {
      forall id | id in courses ensures !ThrowsOnCode(q, courses[id]) && (id in r.courses <==> Selected(q, courses[id])) {
        var j :| 0 <= j < |keys| && keys[j] == id;
      }
    }
  }

  /** The loop of `getCourses` over the keys in enumeration order. */
  method ScanKeys(courses: CourseMap, q: CourseQuery, keys: seq<Id>) returns (r: Query)
    requires forall j :: 0 <= j < |keys| ==> keys[j] in courses
    ensures r.TypeError? ==> exists j :: 0 <= j < |keys| && ThrowsOnCode(q, courses[keys[j]])
    ensures r.Found? ==> forall j :: 0 <= j < |keys| ==> !ThrowsOnCode(q, courses[keys[j]])
    ensures r.Found? ==> forall id :: id in r.courses ==> id in courses && r.courses[id] == courses[id] && Selected(q, courses[id])
    ensures r.Found? ==> forall j :: 0 <= j < |keys| && Selected(q, courses[keys[j]]) ==> keys[j] in r.courses
  {
    var valid: CourseMap := map[];
    var i := 0;
    while i < |keys|
      invariant 0 <= i <= |keys|
      invariant forall id :: id in valid ==> id in courses && valid[id] == courses[id] && Selected(q, courses[id])
      invariant forall j :: 0 <= j < i ==> !ThrowsOnCode(q, courses[keys[j]])
      invariant forall j :: 0 <= j < i && Selected(q, courses[keys[j]]) ==> keys[j] in valid
    {
      var key := keys[i];
      var verdict := Judge(q, courses[key]);
      if verdict.Throw? {
        return TypeError;
      } else if verdict.Keep? {
        valid := valid[key := courses[key]];
      }
      i := i + 1;
    }
    r := Found(valid);
  }

  /**
   What a kept course satisfies: with `active` set it is active, with a
   non-empty `code` its code contains that text; and every course meeting
   both conditions is kept.
   */
  lemma SelectedMeaning(q: CourseQuery, c: Course)
    ensures Selected(q, c) ==> (q.active ==> c.info.active)
    ensures Selected(q, c) && FiltersByCode(q) ==> c.info.code.Val? && OccursIn(q.code.value, c.info.code.value)
    ensures (!q.active || c.info.active)
      && (!FiltersByCode(q) || (c.info.code.Val? && OccursIn(q.code.value, c.info.code.value)))
      ==> Selected(q, c)
  {
  }
}

=== FILE: text.dfy ===
/**
 The string operations the client relies on: decimal rendering of an id
 (template-literal interpolation), `parseInt`, `String.prototype.split`
 on one separator character, joining with a separator, and
 `String.prototype.includes`.
 */
module Text {
  import opened JsValues

  predicate IsDigit(c: char) {
    '0' <= c <= '9'
  }

  predicate AllDigits(s: string) {
    forall i :: 0 <= i < |s| ==> IsDigit(s[i])
  }

  /** True when `c` does not occur in `s`. */
  predicate Free(s: string, c: char) {
    forall i :: 0 <= i < |s| ==> s[i] != c
  }

  function DigitChar(d: nat): (c: char)
    requires d < 10
    ensures IsDigit(c)
  {
    ('0' as int + d) as char
  }

  function DigitValue(c: char): (d: nat)
    requires IsDigit(c)
    ensures d < 10 && DigitChar(d) == c
  {
    c as int - '0' as int
  }

  /** `String(n)` for a non-negative integer: its decimal digits, no leading zero. */
  function Decimal(n: nat): (s: string)
    ensures 1 <= |s| && AllDigits(s)
    ensures |s| > 1 ==> s[0] != '0'
    decreases n
  {
    if n < 10 then [DigitChar(n)] else Decimal(n / 10) + [DigitChar(n % 10)]
  }

  /** The number a string of decimal digits denotes. */
  function DigitsValue(s: string): nat
    requires AllDigits(s)
  {
    if |s| == 0 then 0 else DigitsValue(s[..|s| - 1]) * 10 + DigitValue(s[|s| - 1])
  }

  lemma {:induction false} DecimalValue(n: nat)
    ensures DigitsValue(Decimal(n)) == n
    decreases n
  {
    if n >= 10 {
      var s := Decimal(n);
      assert s[..|s| - 1] == Decimal(n / 10);
      DecimalValue(n / 10);
    }
  }

  /** The longest prefix of `s` made of decimal digits. */
  function LeadingDigits(s: string): (r: string)
    ensures r <= s && AllDigits(r)
    ensures |r| < |s| ==> !IsDigit(s[|r|])
  {
    if |s| == 0 || !IsDigit(s[0]) then "" else [s[0]] + LeadingDigits(s[1..])
  }

  lemma {:induction false} LeadingDigitsOfDigits(s: string)
    requires AllDigits(s)
    ensures LeadingDigits(s) == s
  {
    if |s| > 0 {
      LeadingDigitsOfDigits(s[1..]);
    }
  }

  /**
   `parseInt(s)` with no radix: an optional sign, then the longest run of
   decimal digits; `None` stands for NaN (no digit at all).
   */
  function ParseInt(s: string): (r: Option<int>)
    ensures r.Some? <==> |LeadingDigits(if |s| > 0 && (s[0] == '+' || s[0] == '-') then s[1..] else s)| > 0
  {
    var negative := |s| > 0 && s[0] == '-';
    var body := if |s| > 0 && (s[0] == '+' || s[0] == '-') then s[1..] else s;
    var digits := LeadingDigits(body);
    var magnitude: int := DigitsValue(digits);
    if |digits| == 0 then None
    else if negative then Some(-magnitude)
    else Some(magnitude)
  }

  /** `parseInt(String(n)) === n`. */
  lemma ParseIntDecimal(n: nat)
    ensures ParseInt(Decimal(n)) == Some(n)
  {
    var s := Decimal(n);
    assert s[0] != '+' && s[0] != '-' by { assert IsDigit(s[0]); }
    LeadingDigitsOfDigits(s);
    DecimalValue(n);
  }

  /** `s.split(sep)` for a one-character separator: never empty, `""` gives `[""]`. */
  function Split(s: string, sep: char): (r: seq<string>)
    ensures |r| >= 1
  {
    if |s| == 0 then [""]
    else if s[0] == sep then [""] + Split(s[1..], sep)
    else
      var rest := Split(s[1..], sep);
      [[s[0]] + rest[0]] + rest[1..]
  }

  /** Every piece `Split` returns is free of the separator. */
  lemma {:induction false} SplitPiecesFree(s: string, sep: char)
    ensures forall i :: 0 <= i < |Split(s, sep)| ==> Free(Split(s, sep)[i], sep)
  {
    if |s| > 0 {
      SplitPiecesFree(s[1..], sep);
    }
  }

  /** `xs.join(sep)`. */
  function Join(sep: char, xs: seq<string>): string {
    if |xs| == 0 then ""
    else if |xs| == 1 then xs[0]
    else xs[0] + [sep] + Join(sep, xs[1..])
  }

  /** Appending one element to a joined sequence, the way a `+=` loop builds it. */
  lemma {:induction false} JoinSnoc(sep: char, xs: seq<string>, x: string)
    ensures Join(sep, xs + [x]) == (if |xs| == 0 then x else Join(sep, xs) + [sep] + x)
  {
    if |xs| >= 1 {
      assert (xs + [x])[1..] == xs[1..] + [x];
      JoinSnoc(sep, xs[1..], x);
    }
  }

  lemma {:induction false} SplitFree(a: string, sep: char)
    requires Free(a, sep)
    ensures Split(a, sep) == [a]
  {
    if |a| > 0 {
      SplitFree(a[1..], sep);
      assert a[0] != sep;
      assert [a[0]] + a[1..] == a;
    }
  }

  lemma {:induction false} SplitAt(a: string, sep: char, b: string)
    requires Free(a, sep)
    ensures Split(a + [sep] + b, sep) == [a] + Split(b, sep)
  {
    var s := a + [sep] + b;
    if |a| == 0 {
      assert s[0] == sep && s[1..] == b;
    } else {
      assert s[0] == a[0] && s[1..] == a[1..] + [sep] + b;
      SplitAt(a[1..], sep, b);
      assert [a[0]] + a[1..] == a;
    }
  }

  /** Splitting a join recovers the pieces, provided no piece holds the separator. */
  lemma {:induction false} SplitJoin(sep: char, xs: seq<string>)
    requires |xs| >= 1
    requires forall i :: 0 <= i < |xs| ==> Free(xs[i], sep)
    ensures Split(Join(sep, xs), sep) == xs
  {
    if |xs| == 1 {
      SplitFree(xs[0], sep);
    } else {
      SplitJoin(sep, xs[1..]);
      SplitAt(xs[0], sep, Join(sep, xs[1..]));
    }
  }

  /** A join is empty exactly when there is nothing to join or one empty piece. */
  lemma {:induction false} JoinEmpty(sep: char, xs: seq<string>)
    ensures Join(sep, xs) == "" <==> |xs| == 0 || (|xs| == 1 && xs[0] == "")
  {
    if |xs| >= 2 {
      assert |Join(sep, xs)| >= 1;
    }
  }

  /** `needle` occurs in `hay` starting at offset `i`. */
  predicate OccursAt(needle: string, hay: string, i: int) {
    0 <= i && i + |needle| <= |hay| && hay[i..i + |needle|] == needle
  }

  /** Index-level statement of `includes`: `needle` occurs in `hay` at some offset. */
  ghost predicate OccursIn(needle: string, hay: string) {
    exists i :: OccursAt(needle, hay, i)
  }

  /** `hay.includes(needle)`, scanning from the front. */
  function Includes(hay: string, needle: string): (r: bool)
    ensures r <==> OccursIn(needle, hay)
  {
    if needle <= hay then
      assert OccursAt(needle, hay, 0);
      true
    else if |hay| == 0 then false
    else
      var r := Includes(hay[1..], needle);
      assert OccursIn(needle, hay[1..]) ==> OccursIn(needle, hay) by {
        if OccursIn(needle, hay[1..]) {
          var i :| OccursAt(needle, hay[1..], i);
          assert hay[1..][i..i + |needle|] == hay[i + 1..i + 1 + |needle|];
          assert OccursAt(needle, hay, i + 1);
        }
      }
      assert OccursIn(needle, hay) ==> OccursIn(needle, hay[1..]) by {
        if OccursIn(needle, hay) {
          var i :| OccursAt(needle, hay, i);
          if i == 0 {
            assert false;
          }
          assert hay[1..][i - 1..i - 1 + |needle|] == hay[i..i + |needle|];
          assert OccursAt(needle, hay[1..], i - 1);
        }
      }
      r
  }
}
